=== FILE: README.md ===
# Student registration and department administration: a Dafny model

The application is a Laravel back end with a React front end. Applicants
register as students of a department. Staff manage students and
departments, and a dashboard summarises both. This project models its core:

- the student, department and public registration controllers;
- the dashboard service;
- the two Eloquent models, `Student` and `Department`;
- the pagination component the index pages use.

Everything is modelled as pure functions over an immutable database value.

- `Records.Database` holds the `departments` and `students` tables, in row
  order, and the next auto-increment id of each. `Records.Valid` is the
  invariant every validated handler keeps:
  - ids increase in row order and stay below the next id;
  - every row has its required fields non-blank, keeps the length limits
    (255 characters; 20 for a phone) and has an allowed department status
    or student gender;
  - no two students share an email.

  The invariant does not include the email syntax rule or the `exists` rule
  on `department_id`: a student's department may be deleted later.
- Each controller action is a function. It takes the database and the
  submitted form, a `map<string, string>` of field names to text. It
  returns either the new database or a `Failure`:
  - `NotFound` when route-model binding finds no record (a 404);
  - `Invalid(errors)` when validation fails (a redirect back with field
    errors).

  A failure carries no database, so the caller's database stays as it was.
- Validation (`Validation.Validate`) interprets the controllers' rule arrays
  as data:
  - `required` fails on a missing or blank field;
  - the other rules run only on fields that were submitted;
  - `unique` and `exists` are skipped on a field that already has a
    message, as Laravel does;
  - `validated()` keeps exactly the fields that have rules.
- `latest()` orders by `created_at`, newest first. `paginate(n)` follows the
  length-aware paginator:
  - a missing or non-positive `page` means page 1;
  - the last page is `max(ceil(total / n), 1)`;
  - `from` and `to` are absent on an empty page.
- `registered_at` is `created_at` rendered in the PHP date format `M d, Y`.
  A parser for that format is proved to invert it.
- `PaginationControls` computes what the component draws:
  - the "Showing X to Y of Z" range;
  - the previous and next buttons;
  - the page list with `...` gaps.

  It renders nothing when there is only one page.

Files: `results.dfy` (Option/Result), `text.dfy` (blank test, substring,
decimal digits), `timestamps.dfy`, `listing.dfy` (where/count/latest/limit/
paginate), `records.dfy` (entities, relations, scopes, mass assignment),
`validation.dfy`, `students.dfy`, `departments.dfy`, `registration.dfy`,
`dashboard.dfy`, `pagination_controls.dfy`.

## Model

| member | source | states |
|---|---|---|
| Timestamps.RegisteredAtRoundTrip | app/Models/Student.php:37-40 | the "M d, Y" rendering of created_at loses no part of the date: reading it back gives the same year, month and day |
| Timestamps.RegisteredAtShape | app/Models/Student.php:37-40 | for years 0..9999 the rendering is exactly "Mmm dd, yyyy": twelve characters, two-digit day, four-digit year |
| Records.StudentRowRegisteredAt | app/Models/Student.php:29-40 | the appended registered_at of a serialised student names that student's creation date |
| Records.DepartmentOf | app/Models/Student.php:31-34 | belongsTo: a department is found exactly when one with the student's department_id exists, and it is that department |
| Records.StudentsOf | app/Models/Department.php:29-32 | hasMany: exactly the students whose department_id is the department's id, each once, in table order (row i is the student at the i-th matching position) |
| Records.RelationInverse | app/Models/Department.php:29-32 | in a valid database a student is among a department's students if and only if that department is the student's department |
| Records.StudentCount | app/Models/Department.php:37-40 | student_count is the number of table positions holding a student of the department, never more than all students |
| Listing.FilterInOrder | app/Models/Department.php:45-56 | a where keeps the accepted rows in their original order: row i of the result is the row at the i-th accepted position |
| Records.ActiveDepartments | app/Models/Department.php:45-48 | scopeActive keeps every active department and nothing else, in table order |
| Records.SearchDepartments | app/Models/Department.php:53-56 | scopeSearch keeps exactly the departments whose name contains the search text, in table order |
| Records.SearchEmptyKeepsAll | app/Models/Department.php:53-56 | an empty search keeps every department in order |
| Records.SearchFindsNamePiece | app/Models/Department.php:53-56 | a department is found by any piece of its own name |
| Records.FillStudentOnlyFillable | app/Models/Student.php:15-22 | only the six fillable attributes reach a student; extra keys such as id or created_at change nothing |
| Records.FillStudentAll | app/Models/Student.php:15-22 | filling with all fillable keys sets every column from them and keeps id and created_at |
| Records.FillDepartmentOnlyFillable | app/Models/Department.php:13-18 | only name, description, duration and status reach a department |
| Records.FillDepartmentAll | app/Models/Department.php:13-18 | filling with all four keys sets every column from them and keeps id and created_at |
| Listing.Count | app/Services/DashboardService.php:17-20 | count() of a where is the size of the filtered rows, and is zero exactly when no row qualifies |
| Listing.SortNewestFirst | app/Http/Controllers/DepartmentController.php:16 | latest() returns the same rows, each no older than the next |
| Listing.LatestLimit | app/Services/DashboardService.php:29-32 | latest()->limit(k) returns min(k, n) rows, newest first, all from the table, and no row left out is newer than one returned |
| Listing.LastPageBounds | app/Http/Controllers/StudentController.php:41 | the last page is the fewest pages that hold every row: one fewer page would not hold them all |
| Listing.Paginate | app/Http/Controllers/StudentController.php:41 | the page is the page-th slice of the rows; it has rows iff 1 <= page <= lastPage on a non-empty listing; from/to are its 1-based first and last positions |
| Listing.PageInRange | app/Http/Controllers/StudentController.php:41 | a page offset falls inside the rows if and only if the page is at most lastPage and there are rows |
| Listing.PagesCoverAll | app/Http/Controllers/StudentController.php:41 | pages 1 to lastPage, concatenated, give back every row exactly once, in order |
| Validation.Validate | app/Http/Controllers/StudentController.php:23-30 | validation succeeds iff every rule of every field holds; on success the attributes are the submitted fields that have rules, unchanged; on failure the errors are nonempty, every one a failing rule, and are exactly the reported ones: a missing field reports only required; on a submitted field every failing rule is reported except unique and exists after an earlier rule of that field failed |
| Validation.FirstFailureReported | app/Http/Controllers/StudentController.php:23-30 | a submitted field with a failing rule always gets a message: the first failing rule is reported |
| Validation.MissingRequiredField | app/Http/Controllers/StudentController.php:23-30 | a missing or blank required field fails validation with the required error on that field |
| Validation.BrokenRuleReported | app/Http/Controllers/StudentController.php:23-30 | a submitted field that breaks one of its rules fails validation with that rule reported on that field, unless it is a unique/exists rule and an earlier rule of the same field already failed |
| StudentController.RulesMeaning | app/Http/Controllers/StudentController.php:23-30 | the rule array accepts exactly the requests with a name of at most 255 characters, a syntactically valid email no other student holds, a phone of at most 20, an address, gender male/female/other and the id of an existing department |
| StudentController.Store | app/Http/Controllers/StudentController.php:21-36 | store succeeds iff the request is acceptable; then exactly one student with the submitted fields, the next id and created_at = now is appended; otherwise validation errors are returned |
| StudentController.StoreRejectsTakenEmail | app/Http/Controllers/StudentController.php:25 | an email some student already holds is refused; the unique error is reported iff the email has valid syntax, and otherwise the email (syntax) error is |
| StudentController.StoreRejectsUnknownGender | app/Http/Controllers/StudentController.php:28 | a gender other than male, female or other is refused with the in error on gender |
| StudentController.StoreRejectsLongPhone | app/Http/Controllers/StudentController.php:26 | a phone longer than 20 characters is refused with the max error on phone |
| StudentController.StoreRejectsUnknownDepartment | app/Http/Controllers/StudentController.php:29 | a department_id naming no department is refused with the exists error |
| StudentController.Update | app/Http/Controllers/StudentController.php:60-75 | unknown id gives NotFound; otherwise update succeeds iff the request is acceptable with the student's own email exempt, and then only that row changes, keeping its id and created_at |
| StudentController.UpdateIdempotent | app/Http/Controllers/StudentController.php:60-75 | repeating an accepted update changes nothing more: the email it wrote is exempt from the student's own unique rule |
| StudentController.UpdateKeepsOwnEmail | app/Http/Controllers/StudentController.php:64 | in a valid database a student's current email passes the uniqueness rule of its own update |
| StudentController.UpdateRejectsOthersEmail | app/Http/Controllers/StudentController.php:64 | an email held by a different student is refused on update |
| StudentController.Destroy | app/Http/Controllers/StudentController.php:77-83 | unknown id gives NotFound; otherwise exactly that row is removed |
| StudentController.DestroyRemovesOnlyTarget | app/Http/Controllers/StudentController.php:77-83 | after destroy a student remains iff it was there and is not the deleted one |
| StudentController.Index | app/Http/Controllers/StudentController.php:38-43 | the page is the requested one (page 1 when absent or below 1) and lastPage is ceil(total / 10), at least 1; an in-range page holds min(10, rows left) students, an out-of-range page none; row i is the student at offset + i in table order, with its department and registered_at; from and to are absent on an empty page and otherwise offset + 1 and offset + the number of rows |
| StudentController.IndexPagesCoverAll | app/Http/Controllers/StudentController.php:38-43 | paging from 1 to lastPage lists every student exactly once, in table order, each with its department and registered_at |
| StudentController.IndexFifteenStudents | app/Http/Controllers/StudentController.php:41 | fifteen students give ten rows on page one and two pages |
| StudentController.Show | app/Http/Controllers/StudentController.php:45-50 | show returns the student with that id, its department and its registered_at, or NotFound when there is none |
| StudentController.StoreThenShow | app/Http/Controllers/StudentController.php:21-50 | after an accepted store, show with the next id finds the student exactly as submitted |
| StudentController.DestroyThenShow | app/Http/Controllers/StudentController.php:45-83 | after destroy, show with the deleted id gives NotFound |
| StudentController.CreateForm | app/Http/Controllers/StudentController.php:12-19 | the form offers exactly the active departments |
| StudentController.EditForm | app/Http/Controllers/StudentController.php:52-58 | edit returns the student with that id, its department loaded and its registered_at, and exactly the active departments, or NotFound |
| StudentController.StorePreservesValid | app/Http/Controllers/StudentController.php:21-36 | an accepted store keeps the database invariant, including unique emails |
| StudentController.UpdatePreservesValid | app/Http/Controllers/StudentController.php:60-75 | an accepted update keeps the database invariant |
| StudentController.DestroyPreservesValid | app/Http/Controllers/StudentController.php:77-83 | a destroy keeps the database invariant |
| DepartmentController.RulesMeaning | app/Http/Controllers/DepartmentController.php:36-41 | the rule array accepts exactly a name and a duration of at most 255 characters, a description, and status active or inactive |
| DepartmentController.Store | app/Http/Controllers/DepartmentController.php:34-47 | store succeeds iff the request is acceptable, and then appends exactly one department with the submitted fields, the next id and created_at = now |
| DepartmentController.StoreRejectsUnknownStatus | app/Http/Controllers/DepartmentController.php:40 | a status other than active or inactive is refused with the in error on status |
| DepartmentController.Update | app/Http/Controllers/DepartmentController.php:69-82 | unknown id gives NotFound; otherwise update succeeds iff the request is acceptable, and then only that row changes |
| DepartmentController.UpdateIdempotent | app/Http/Controllers/DepartmentController.php:69-82 | repeating an accepted update changes nothing more |
| DepartmentController.Destroy | app/Http/Controllers/DepartmentController.php:87-93 | unknown id gives NotFound; otherwise only that department is removed and the students are left untouched |
| DepartmentController.DestroyOrphansStudents | app/Http/Controllers/DepartmentController.php:87-93 | after destroy the deleted department's students have no department |
| DepartmentController.Index | app/Http/Controllers/DepartmentController.php:14-21 | the page is the requested one (page 1 when absent or below 1) and lastPage is ceil(total / 10), at least 1; an in-range page holds min(10, rows left) departments, an out-of-range page none; row i is the department at offset + i of the newest-first listing, with its student_count |
| DepartmentController.IndexShowing | app/Http/Controllers/DepartmentController.php:16 | from and to are absent on an empty page and otherwise offset + 1 and offset + the number of rows |
| DepartmentController.IndexPagesCoverAll | app/Http/Controllers/DepartmentController.php:14-21 | paging from 1 to lastPage lists every department exactly once, newest first, each with its student_count |
| DepartmentController.IndexFifteenDepartments | app/Http/Controllers/DepartmentController.php:16 | fifteen departments give ten rows on page one and two pages |
| DepartmentController.Edit | app/Http/Controllers/DepartmentController.php:59-64 | edit returns the department with that id, or NotFound |
| DepartmentController.StoreThenEdit | app/Http/Controllers/DepartmentController.php:34-64 | after an accepted store, edit with the next id finds the department exactly as submitted |
| DepartmentController.DestroyThenEdit | app/Http/Controllers/DepartmentController.php:59-93 | after destroy, edit with the deleted id gives NotFound |
| DepartmentController.StorePreservesValid | app/Http/Controllers/DepartmentController.php:34-47 | an accepted store keeps the database invariant |
| DepartmentController.UpdatePreservesValid | app/Http/Controllers/DepartmentController.php:69-82 | an accepted update keeps the database invariant |
| DepartmentController.DestroyPreservesValid | app/Http/Controllers/DepartmentController.php:87-93 | a destroy keeps the database invariant |
| RegistrationController.SameRulesAsStaffStore | app/Http/Controllers/RegistrationController.php:21-28 | the public form's rule array is the staff store's rule array |
| RegistrationController.Create | app/Http/Controllers/RegistrationController.php:12-17 | the public form offers exactly the active departments |
| RegistrationController.Store | app/Http/Controllers/RegistrationController.php:19-34 | an application is accepted iff it meets the student rules, and then exactly one student is appended |
| RegistrationController.SameOutcomeAsStaffStore | app/Http/Controllers/RegistrationController.php:19-34 | the public and staff store decide every submission identically |
| RegistrationController.DuplicateEmailRejected | app/Http/Controllers/RegistrationController.php:23 | a second application with an email already on file is refused; the unique error is reported iff the email has valid syntax, and otherwise the email (syntax) error is |
| RegistrationController.StorePreservesValid | app/Http/Controllers/RegistrationController.php:19-34 | an accepted application keeps the database invariant |
| DashboardService.GetStatistics | app/Services/DashboardService.php:14-22 | total is all students; male and female count exact gender matches and together never exceed the total; departments counts active ones only |
| DashboardService.GenderPartition | app/Services/DashboardService.php:17-19 | in a valid database male + female + other students equal the total |
| DashboardService.EmptyDashboard | app/Services/DashboardService.php:14-33 | with no data every figure is zero and there are no recent students |
| DashboardService.RecentStudents | app/Services/DashboardService.php:27-33 | min(5, n) students, newest first, each taken from the table no more often than it occurs there, and none left out is newer than one shown |
| DashboardService.GetRecentStudents | app/Services/DashboardService.php:29-32 | each recent student comes with its department loaded and its registered_at |
| DashboardService.RecentStudentsBound | app/Services/DashboardService.php:29-32 | never more than five rows; with at most five students all of them are shown |
| PaginationControls.Render | resources/js/Components/PaginationControls.tsx:71-148 | nothing is drawn iff lastPage <= 1; previous is disabled iff on page 1 and next iff on the last page; they ask for the adjacent pages; the page list and the "Showing" range are the ones the page-list and range lemmas describe |
| PaginationControls.SmallPageList | resources/js/Components/PaginationControls.tsx:28-32 | with at most five pages every page 1..lastPage is listed and there is no gap |
| PaginationControls.WindowShape | resources/js/Components/PaginationControls.tsx:35-44 | with more than five pages the window is five consecutive pages inside 1..lastPage holding the current page |
| PaginationControls.LargePageListBounds | resources/js/Components/PaginationControls.tsx:33-66 | a long list starts at page 1, ends at lastPage, shows the current page, and its numbers strictly increase within 1..lastPage |
| PaginationControls.LargePageListGaps | resources/js/Components/PaginationControls.tsx:46-65 | a gap appears before the window iff it starts after page 2 and after it iff it ends before lastPage - 1; gaps skip pages and neighbouring buttons are consecutive |
| PaginationControls.LargePageListMembers | resources/js/Components/PaginationControls.tsx:33-66 | a page is listed iff it is page 1, the last page or inside the window |
| PaginationControls.LargePageListSize | resources/js/Components/PaginationControls.tsx:33-66 | at most nine entries and seven page buttons |
| PaginationControls.ExactlyOneHighlighted | resources/js/Components/PaginationControls.tsx:122-137 | exactly one entry is highlighted, the current page's button |
| PaginationControls.NavigationStaysInRange | resources/js/Components/PaginationControls.tsx:111-148 | an enabled previous or next button asks for a page within 1..lastPage |
| PaginationControls.ShowingMatchesPaginator | resources/js/Components/PaginationControls.tsx:20-21 | on a page with rows, "Showing X to Y of Z" equals the paginator's from, to and total |
| PaginationControls.ShowingExamples | tests/Frontend/PaginationControls.test.tsx:17-57 | 25 results at 10 per page show 1 to 10 on page one and 21 to 25 on page three; a single page draws nothing |

## Left out

- The Inertia page rendering, redirects and flash messages. Only the data
  each action passes to its page, and its outcome, are modelled.
- `DepartmentController::create` renders an empty form, and
  `DepartmentController::show` has an empty body, so neither has behaviour
  to model.
- The `StudentObserver` notifications, routes and authentication, seeders,
  the dashboard controller, and the React pages and components other than
  `PaginationControls`. These are outside the modelled core.
- The email syntax check is the framework's. It is a parameter,
  `emailOk: string -> bool`.
- The `string` validation rule always holds for submitted text, so it is
  not modelled.
- The request middleware that trims input and turns empty strings into null
  is not modelled. A blank field counts as missing, and stored values are
  not trimmed.
- Database collation is not modelled. The unique-email check and name search
  compare characters exactly: no case folding, and no wildcard meaning for
  `%` or `_` inside the search text.
- PaginationControls.Render, StartItem and EndItem take integers, while the
  component's props are JavaScript numbers. Non-integral, NaN or infinite
  props are not modelled.
- The `page` query text is taken as already parsed (`Option<int>`). Laravel
  reads it with PHP's integer filter and falls back to page 1 for text
  such as `2abc`; that parsing step is not modelled.
- Validation returns every message of a field, in rule order. The pages
  display only the first of them; that display step is not modelled.
- The `department_id` text is read as a plain decimal number. Other forms the
  database might accept (leading `+`, surrounding spaces) are rejected.
- `updated_at`, Carbon time zones and the clock. `now` is a parameter of the
  inserting handlers.
- Ties in `latest()`: rows with equal `created_at` keep their table order.
  The database gives no order for ties.
- Concurrency between requests, such as two simultaneous stores with the
  same email. Each handler is one atomic step.
- Foreign-key behaviour on department deletion is defined in a migration
  that is not part of this model. Students are left as they are, with a
  department that no longer exists.
- The page forms list only active departments, but validation accepts any
  existing department. The model keeps both as written.
- `StudentController::index` has no `orderBy`, so SQL gives no row order.
  The model assumes table (insertion) order.
- The index actions take no search or sort parameters, although the
  feature tests in tests/Feature/StudentControllerTest.php:41-167 and
  tests/Feature/DepartmentControllerTest.php:38-120 send them. The model
  follows the controllers, which ignore them. The search scope itself is
  modelled (Records.SearchDepartments).
- Department rows serialised elsewhere carry the appended `student_count`
  (app/Models/Department.php:24). DepartmentController.Edit and the
  department inside a StudentRow leave it out. Only the department index
  rows carry it.
- Timestamps.RegisteredAtShape: the twelve-character form holds for years
  0..9999 only. Years outside that range have a longer year part.

=== FILE: dashboard.dfy ===
/** DashboardService (app/Services/DashboardService.php): read-only aggregates
    over the store. */
module DashboardService {
  import opened Timestamps
  import opened Listing
  import opened Records

  datatype Statistics = Statistics(
    totalStudents: nat,
    maleStudents: nat,
    femaleStudents: nat,
    totalDepartments: nat)

  predicate IsMale(st: Student) { st.gender == "male" }
  predicate IsFemale(st: Student) { st.gender == "female" }
  predicate IsOther(st: Student) { st.gender == "other" }

  /** getStatistics: all students, male and female students by exact gender
      match, and the active departments only. */
  function GetStatistics(s: Database): (r: Statistics)
    ensures r.totalStudents == |s.students|
    ensures r.maleStudents + r.femaleStudents <= r.totalStudents
    ensures r.maleStudents == |Filter(s.students, IsMale)| && r.femaleStudents == |Filter(s.students, IsFemale)|
    ensures r.totalDepartments == |ActiveDepartments(s.departments)|
    ensures |s.students| == 0 ==> r.maleStudents == 0 && r.femaleStudents == 0
  {
    CountDisjoint(s.students, IsMale, IsFemale);
    Statistics(
      |s.students|,
      Count(s.students, IsMale),
      Count(s.students, IsFemale),
      Count(s.departments, IsActive))
  }

  /** In a valid store every student is male, female or other, so the two
      gender counts and the students of gender 'other' add up to the total:
      'other' counts toward the total only. */
  lemma GenderPartition(s: Database)
    requires Valid(s)
    ensures GetStatistics(s).maleStudents + GetStatistics(s).femaleStudents + Count(s.students, IsOther)
      == GetStatistics(s).totalStudents
  {
    forall i | 0 <= i < |s.students|
      ensures (if IsMale(s.students[i]) then 1 else 0) + (if IsFemale(s.students[i]) then 1 else 0)
        + (if IsOther(s.students[i]) then 1 else 0) == 1
    {
      OneGender(s.students[i]);
    }
    CountPartition(s.students, IsMale, IsFemale, IsOther);
  }

  /** A well-formed student has exactly one of the three genders. */
  lemma OneGender(st: Student)
    requires WellFormedStudent(st)
    ensures (if IsMale(st) then 1 else 0) + (if IsFemale(st) then 1 else 0) + (if IsOther(st) then 1 else 0) == 1
  {
    assert st.gender == "male" || st.gender == "female" || st.gender == "other";
  }

  /** The empty store shows zero everywhere and no recent students. */
  lemma EmptyDashboard()
    ensures GetStatistics(Empty) == Statistics(0, 0, 0, 0)
    ensures GetRecentStudents(Empty) == []
  {
  }

  /** The students behind getRecentStudents: `latest()->limit(5)`, newest
      first, at most five, and no student left out is newer than one shown. */
  function RecentStudents(s: Database): (top: seq<Student>)
    ensures |top| == if |s.students| < 5 then |s.students| else 5
    ensures multiset(top) <= multiset(s.students)
    ensures NewestFirst(top, StudentCreatedAt)
    ensures forall x, y :: x in s.students && x !in top && y in top ==>
      NotBefore(StudentCreatedAt(y), StudentCreatedAt(x))
  {
    LatestLimit(s.students, StudentCreatedAt, 5);
    Take(SortNewestFirst(s.students, StudentCreatedAt), 5)
  }

  /** getRecentStudents: the recent students, each eager-loaded with its
      department (`with('department')`) and its computed registration date. */
  function GetRecentStudents(s: Database): (r: seq<StudentRow>)
    ensures |r| == |RecentStudents(s)|
    ensures forall i :: 0 <= i < |r| ==>
      && r[i].student == RecentStudents(s)[i]
      && r[i].department == DepartmentOf(s, r[i].student)
      && r[i].registeredAt == RegisteredAt(r[i].student.createdAt)
  {
    StudentRows(s, RecentStudents(s))
  }

  /** The dashboard never lists more than five students, and lists all of
      them while there are at most five. */
  lemma RecentStudentsBound(s: Database)
    ensures |GetRecentStudents(s)| <= 5
    ensures |s.students| <= 5 ==> multiset(RecentStudents(s)) == multiset(s.students)
  {
    var top := RecentStudents(s);
    if |s.students| <= 5 {
      assert |top| == |s.students|;
      MultisetSubsetSameSize(multiset(top), multiset(s.students));
    }
  }

  lemma MultisetSubsetSameSize<T>(a: multiset<T>, b: multiset<T>)
    requires a <= b && |a| == |b|
    ensures a == b
  {
    var d := b - a;
    assert b == a + d;
    assert |d| == 0;
  }
}

=== FILE: departments.dfy ===
/** DepartmentController (app/Http/Controllers/DepartmentController.php): the
    staff CRUD actions on departments. */
module DepartmentController {
  import opened Results
  import opened Timestamps
  import opened Listing
  import opened Records
  import opened Validation

  const PerPage: nat := 10

  /** The rule array of `store`, repeated verbatim by `update`. */
  const Rules: seq<FieldRules> := [
    FieldRules("name", [Required, MaxLength(255)]),
    FieldRules("description", [Required]),
    FieldRules("duration", [Required, MaxLength(255)]),
    FieldRules("status", [Required, OneOf(["active", "inactive"])])]

  /** The department rules, field by field: a name of at most 255 characters,
      a description, a duration of at most 255 characters, and a status of
      active or inactive. */
  predicate Acceptable(req: Request) {
    && Present(req, "name") && |req["name"]| <= 255
    && Present(req, "description")
    && Present(req, "duration") && |req["duration"]| <= 255
    && Present(req, "status") && (req["status"] == "active" || req["status"] == "inactive")
  }

  lemma RulesMeaning(s: Database, req: Request)
    ensures Satisfies(Rules, req, RuleContext(s)) <==> Acceptable(req)
  {
    var ctx := RuleContext(s);
    if Satisfies(Rules, req, ctx) {
      assert !Fails(Rules[0], Required, req, ctx) && !Fails(Rules[0], MaxLength(255), req, ctx);
      assert !Fails(Rules[1], Required, req, ctx);
      assert !Fails(Rules[2], Required, req, ctx) && !Fails(Rules[2], MaxLength(255), req, ctx);
      assert !Fails(Rules[3], Required, req, ctx) && !Fails(Rules[3], OneOf(["active", "inactive"]), req, ctx);
    }
  }

  /** The context the department rules are checked in. No department rule is
      an email rule, so the email syntax check is never consulted. */
  function RuleContext(s: Database): Context {
    Context(s, (e: string) => true)
  }

  /** The department a validated request describes. */
  function Submitted(req: Request, id: Id, createdAt: Timestamp): Department
    requires DepartmentFillable <= req.Keys
  {
    Department(id, req["name"], req["description"], req["duration"], req["status"], createdAt)
  }

  lemma ValidatedAttributes(s: Database, req: Request)
    requires Validate(Rules, req, RuleContext(s)).Ok?
    ensures Acceptable(req)
    ensures var attrs := Validate(Rules, req, RuleContext(s)).value;
      && attrs.Keys == DepartmentFillable
      && (forall k :: k in attrs ==> attrs[k] == req[k])
  {
    RulesMeaning(s, req);
    RulesCoverFillable();
    assert DepartmentFillable <= req.Keys;
    ValidatedKeys(Rules, req, RuleContext(s), DepartmentFillable);
  }

  /** The rule array names exactly the fillable attributes. */
  lemma RulesCoverFillable()
    ensures RuleFields(Rules) == DepartmentFillable
  {
    assert Rules[0].field == "name" && Rules[1].field == "description";
    assert Rules[2].field == "duration" && Rules[3].field == "status";
    forall f | f in RuleFields(Rules)
      ensures f in DepartmentFillable
    {
      var i :| 0 <= i < |Rules| && Rules[i].field == f;
    }
  }

  /** Department::create($validated). */
  function Create(s: Database, attrs: Attributes, now: Timestamp): Database {
    var blank := Department(s.nextDepartmentId, "", "", "", "", now);
    s.(departments := s.departments + [FillDepartment(blank, attrs)], nextDepartmentId := s.nextDepartmentId + 1)
  }

  lemma CreateValidated(s: Database, req: Request, now: Timestamp)
    requires Validate(Rules, req, RuleContext(s)).Ok?
    ensures DepartmentFillable <= req.Keys
    ensures Create(s, Validate(Rules, req, RuleContext(s)).value, now)
      == s.(departments := s.departments + [Submitted(req, s.nextDepartmentId, now)],
            nextDepartmentId := s.nextDepartmentId + 1)
  {
    var attrs := Validate(Rules, req, RuleContext(s)).value;
    ValidatedAttributes(s, req);
    FillDepartmentAll(Department(s.nextDepartmentId, "", "", "", "", now), attrs);
  }

  /** `store`: validate, then insert exactly one department. */
  function Store(s: Database, req: Request, now: Timestamp): (r: Result<Database, Failure>)
    ensures r.Ok? <==> Acceptable(req)
    ensures r.Err? ==> r.error.Invalid? && |r.error.errors| > 0
    ensures r.Ok? ==> (
      && DepartmentFillable <= req.Keys
      && r.value == s.(departments := s.departments + [Submitted(req, s.nextDepartmentId, now)],
                       nextDepartmentId := s.nextDepartmentId + 1))
  {
    RulesMeaning(s, req);
    match Validate(Rules, req, RuleContext(s))
    case Err(errors) => Err(Invalid(errors))
    case Ok(attrs) =>
      CreateValidated(s, req, now);
      Ok(Create(s, attrs, now))
  }

  /** A status other than active or inactive is reported on `status`. */
  lemma StoreRejectsUnknownStatus(s: Database, req: Request, now: Timestamp)
    requires Present(req, "status") && req["status"] !in ["active", "inactive"]
    ensures Store(s, req, now).Err?
    ensures FieldError("status", OneOf(["active", "inactive"])) in Store(s, req, now).error.errors
  {
    BrokenRuleReported(Rules, req, RuleContext(s), 3, 1);
  }

  lemma UpdateValidated(s: Database, k: nat, req: Request)
    requires k < |s.departments| && Validate(Rules, req, RuleContext(s)).Ok?
    ensures DepartmentFillable <= req.Keys
    ensures FillDepartment(s.departments[k], Validate(Rules, req, RuleContext(s)).value)
      == Submitted(req, s.departments[k].id, s.departments[k].createdAt)
  {
    ValidatedAttributes(s, req);
    FillDepartmentAll(s.departments[k], Validate(Rules, req, RuleContext(s)).value);
  }

  /** `update`: route-model binding, validation, then `$department->update`
      on that one row; every other row is untouched. */
  function Update(s: Database, id: Id, req: Request): (r: Result<Database, Failure>)
    ensures FindDepartment(s.departments, id).None? ==> r == Err(NotFound)
    ensures r.Ok? <==> FindDepartment(s.departments, id).Some? && Acceptable(req)
    ensures r.Err? && FindDepartment(s.departments, id).Some? ==> r.error.Invalid? && |r.error.errors| > 0
    ensures r.Ok? ==> (var k := FindDepartment(s.departments, id).value;
      && DepartmentFillable <= req.Keys
      && r.value == s.(departments := s.departments[k := Submitted(req, id, s.departments[k].createdAt)]))
  {
    match FindDepartment(s.departments, id)
    case None => Err(NotFound)
    case Some(k) =>
      RulesMeaning(s, req);
      match Validate(Rules, req, RuleContext(s))
      case Err(errors) => Err(Invalid(errors))
      case Ok(attrs) =>
        UpdateValidated(s, k, req);
        Ok(s.(departments := s.departments[k := FillDepartment(s.departments[k], attrs)]))
  }

  /** Submitting the same update twice leaves the same rows as submitting it once. */
  lemma UpdateIdempotent(s: Database, id: Id, req: Request)
    requires Update(s, id, req).Ok?
    ensures var t := Update(s, id, req).value;
      Update(t, id, req) == Ok(t)
  {
    var k := FindDepartment(s.departments, id).value;
    var t := Update(s, id, req).value;
    assert t.departments[k].id == id;
    var k' := FindDepartment(t.departments, id).value;
    assert k' == k;
    assert t.departments[k := Submitted(req, id, t.departments[k].createdAt)] == t.departments;
  }

  /** `destroy`: route-model binding, then delete that department. Its students
      are left as they are. */
  function Destroy(s: Database, id: Id): (r: Result<Database, Failure>)
    ensures FindDepartment(s.departments, id).None? <==> r == Err(NotFound)
    ensures r.Ok? ==> (var k := FindDepartment(s.departments, id).value;
      && r.value.departments == RemoveAt(s.departments, k)
      && r.value.students == s.students
      && r.value.nextDepartmentId == s.nextDepartmentId && r.value.nextStudentId == s.nextStudentId)
  {
    match FindDepartment(s.departments, id)
    case None => Err(NotFound)
    case Some(k) => Ok(s.(departments := RemoveAt(s.departments, k)))
  }

  /** After `destroy`, the students that pointed at the department still exist
      but no longer have a department. */
  lemma DestroyOrphansStudents(s: Database, id: Id, st: Student)
    requires Valid(s) && Destroy(s, id).Ok? && st.departmentId == id
    ensures DepartmentOf(Destroy(s, id).value, st) == None
  {
    var k := FindDepartment(s.departments, id).value;
    var t := Destroy(s, id).value;
    forall i | 0 <= i < |t.departments|
      ensures t.departments[i].id != id
    {
      var i' := if i < k then i else i + 1;
      assert t.departments[i] == s.departments[i'];
    }
  }

  /** `index`: `Department::latest()->paginate(10)`, each row with its
      student_count. Row i of page p is the department at position
      (p - 1) * 10 + i of the newest-first listing. */
  function Index(s: Database, page: Option<int>): (p: Paginated<DepartmentRow>)
    ensures p.total == |s.departments| && p.perPage == PerPage
    ensures p.currentPage == CurrentPage(page)
    ensures p.lastPage == LastPage(|s.departments|, PerPage)
    ensures var lo := Offset(p.currentPage, PerPage);
      if lo < |s.departments|
      then |p.data| == (if PerPage < |s.departments| - lo then PerPage else |s.departments| - lo)
      else p.data == []
    ensures forall i :: 0 <= i < |p.data| ==>
      && Offset(p.currentPage, PerPage) + i < |s.departments|
      && p.data[i].department == SortNewestFirst(s.departments, DepartmentCreatedAt)[Offset(p.currentPage, PerPage) + i]
    ensures forall i, j :: 0 <= i < j < |p.data| ==>
      NotBefore(p.data[i].department.createdAt, p.data[j].department.createdAt)
    ensures forall i :: 0 <= i < |p.data| ==>
      p.data[i].department in s.departments && p.data[i].studentCount == StudentCount(s, p.data[i].department)
  {
    var sorted := SortNewestFirst(s.departments, DepartmentCreatedAt);
    var rows := DepartmentRows(s, sorted);
    var p := Paginate(rows, page, PerPage);
    IndexRows(s, sorted, p.data, Offset(p.currentPage, PerPage));
    p
  }

  /** The "Showing x to y" numbers of an index page: both absent on an empty
      page, otherwise the 1-based positions of its first and last rows. */
  lemma IndexShowing(s: Database, page: Option<int>)
    ensures var p := Index(s, page);
      && (p.from.Some? <==> |p.data| > 0)
      && (p.from.Some? ==> p.from == Some(Offset(p.currentPage, PerPage) + 1))
      && (p.from.Some? ==> p.to == Some(Offset(p.currentPage, PerPage) + |p.data|))
  {
  }

  lemma IndexRows(s: Database, sorted: seq<Department>, data: seq<DepartmentRow>, lo: nat)
    requires sorted == SortNewestFirst(s.departments, DepartmentCreatedAt)
    requires data == Slice(DepartmentRows(s, sorted), lo, PerPage)
    ensures forall i :: 0 <= i < |data| ==> lo + i < |sorted| && data[i].department == sorted[lo + i]
    ensures forall i, j :: 0 <= i < j < |data| ==>
      NotBefore(data[i].department.createdAt, data[j].department.createdAt)
    ensures forall i :: 0 <= i < |data| ==>
      data[i].department in s.departments && data[i].studentCount == StudentCount(s, data[i].department)
  {
    var rows := DepartmentRows(s, sorted);
    SliceAt(rows, lo, PerPage);
    SortedFromStore(s.departments, sorted);
    forall i | 0 <= i < |data|
      ensures data[i] == DepartmentRow(sorted[lo + i], StudentCount(s, sorted[lo + i]))
    {
      assert data[i] == rows[lo + i];
    }
    forall i, j | 0 <= i < j < |data|
      ensures NotBefore(data[i].department.createdAt, data[j].department.createdAt)
    {
      assert NotBefore(DepartmentCreatedAt(sorted[lo + i]), DepartmentCreatedAt(sorted[lo + j]));
    }
  }

  /** The rows of index pages 1 to k, one page after another. */
  function IndexPages(s: Database, k: nat): seq<DepartmentRow> {
    if k == 0 then [] else IndexPages(s, k - 1) + Index(s, Some(k)).data
  }

  /** The departments of a run of rows. */
  function Departments(rows: seq<DepartmentRow>): (ds: seq<Department>)
    ensures |ds| == |rows| && forall i :: 0 <= i < |rows| ==> ds[i] == rows[i].department
  {
    seq(|rows|, i requires 0 <= i < |rows| => rows[i].department)
  }

  /** Paging through the index from page 1 to the last page lists every
      department exactly once, newest first, each with its student_count. */
  lemma IndexPagesCoverAll(s: Database)
    ensures var all := IndexPages(s, LastPage(|s.departments|, PerPage));
      && multiset(Departments(all)) == multiset(s.departments)
      && NewestFirst(Departments(all), DepartmentCreatedAt)
      && forall i :: 0 <= i < |all| ==> all[i].studentCount == StudentCount(s, all[i].department)
  {
    var sorted := SortNewestFirst(s.departments, DepartmentCreatedAt);
    var rows := DepartmentRows(s, sorted);
    var all := IndexPages(s, LastPage(|s.departments|, PerPage));
    IndexPagesArePages(s, LastPage(|s.departments|, PerPage));
    PagesCoverAll(rows, PerPage);
    assert Departments(all) == sorted;
  }

  lemma {:induction false} IndexPagesArePages(s: Database, k: nat)
    ensures IndexPages(s, k)
      == PagesUpTo(DepartmentRows(s, SortNewestFirst(s.departments, DepartmentCreatedAt)), PerPage, k)
  {
    if k > 0 {
      IndexPagesArePages(s, k - 1);
    }
  }

  lemma SortedFromStore(ds: seq<Department>, sorted: seq<Department>)
    requires multiset(sorted) == multiset(ds)
    ensures forall i :: 0 <= i < |sorted| ==> sorted[i] in ds
  {
    forall i | 0 <= i < |sorted|
      ensures sorted[i] in ds
    {
      assert sorted[i] in multiset(ds);
    }
  }

  /** Fifteen departments fill page one with ten rows, and there are two pages. */
  lemma IndexFifteenDepartments(s: Database)
    requires |s.departments| == 15
    ensures |Index(s, None).data| == 10
    ensures Index(s, None).currentPage == 1 && Index(s, None).lastPage == 2
  {
  }

  /** `edit`: the department, or a 404. */
  function Edit(s: Database, id: Id): (r: Result<Department, Failure>)
    ensures r.Err? <==> FindDepartment(s.departments, id).None?
    ensures r.Ok? ==> r.value in s.departments && r.value.id == id
  {
    match FindDepartment(s.departments, id)
    case None => Err(NotFound)
    case Some(k) => Ok(s.departments[k])
  }

  /** A stored department is found for editing under the id it was given. */
  lemma StoreThenEdit(s: Database, req: Request, now: Timestamp)
    requires Valid(s) && Store(s, req, now).Ok?
    ensures Edit(Store(s, req, now).value, s.nextDepartmentId) == Ok(Submitted(req, s.nextDepartmentId, now))
  {
    var t := Store(s, req, now).value;
    var n := |s.departments|;
    assert t.departments[n].id == s.nextDepartmentId;
  }

  /** A destroyed department can no longer be edited: its id gives a 404. */
  lemma DestroyThenEdit(s: Database, id: Id)
    requires Valid(s) && Destroy(s, id).Ok?
    ensures Edit(Destroy(s, id).value, id) == Err(NotFound)
  {
    var k := FindDepartment(s.departments, id).value;
    var t := Destroy(s, id).value;
    forall i | 0 <= i < |t.departments|
      ensures t.departments[i].id != id
    {
      var i' := if i < k then i else i + 1;
      assert t.departments[i] == s.departments[i'];
    }
  }

  // ---------------------------------------------------------------------------
  // The store invariant is kept by every mutation.

  lemma StorePreservesValid(s: Database, req: Request, now: Timestamp)
    requires Valid(s) && Store(s, req, now).Ok?
    ensures Valid(Store(s, req, now).value)
  {
    AcceptedWellFormed(req, s.nextDepartmentId, now);
    AppendPreservesValid(s, Submitted(req, s.nextDepartmentId, now));
  }

  /** An accepted request describes a department that satisfies the row invariant. */
  lemma AcceptedWellFormed(req: Request, id: Id, t: Timestamp)
    requires Acceptable(req)
    ensures DepartmentFillable <= req.Keys && WellFormedDepartment(Submitted(req, id, t))
  {
    assert req["status"] in Statuses;
  }

  lemma AppendPreservesValid(s: Database, d: Department)
    requires Valid(s) && d.id == s.nextDepartmentId && WellFormedDepartment(d)
    ensures Valid(s.(departments := s.departments + [d], nextDepartmentId := s.nextDepartmentId + 1))
  {
  }

  lemma UpdatePreservesValid(s: Database, id: Id, req: Request)
    requires Valid(s) && Update(s, id, req).Ok?
    ensures Valid(Update(s, id, req).value)
  {
    var k := FindDepartment(s.departments, id).value;
    ReplacePreservesValid(s, k, Submitted(req, id, s.departments[k].createdAt));
  }

  lemma ReplacePreservesValid(s: Database, k: nat, d: Department)
    requires Valid(s) && k < |s.departments| && d.id == s.departments[k].id && WellFormedDepartment(d)
    ensures Valid(s.(departments := s.departments[k := d]))
  {
  }

  lemma DestroyPreservesValid(s: Database, id: Id)
    requires Valid(s) && Destroy(s, id).Ok?
    ensures Valid(Destroy(s, id).value)
  {
  }
}

=== FILE: listing.dfy ===
/** Query building blocks shared by the index actions and the dashboard:
    `where` filters, `count()`, `latest()` ordering, `limit` and Laravel's
    length-aware `paginate`. */
module Listing {
  import opened Results
  import opened Timestamps

  /** The indices, from `from` on, of the rows `keep` accepts: every one of
      them, ascending. */
  function PositionsFrom<T>(xs: seq<T>, keep: T -> bool, from: nat): (p: seq<nat>)
    requires from <= |xs|
    ensures forall i :: 0 <= i < |p| ==> from <= p[i] < |xs| && keep(xs[p[i]])
    ensures forall i, j :: 0 <= i < j < |p| ==> p[i] < p[j]
    ensures forall k :: from <= k < |xs| && keep(xs[k]) ==> k in p
    decreases |xs| - from
  {
    if from == |xs| then []
    else if keep(xs[from]) then [from] + PositionsFrom(xs, keep, from + 1)
    else PositionsFrom(xs, keep, from + 1)
  }

  /** The indices of the rows `keep` accepts, ascending. */
  function Positions<T>(xs: seq<T>, keep: T -> bool): seq<nat> {
    PositionsFrom(xs, keep, 0)
  }

  /** `where`: the rows satisfying `keep`, in their original order. */
  function Filter<T>(xs: seq<T>, keep: T -> bool): (r: seq<T>)
    ensures |r| <= |xs|
    ensures forall i :: 0 <= i < |r| ==> r[i] in xs && keep(r[i])
    ensures forall i :: 0 <= i < |xs| && keep(xs[i]) ==> xs[i] in r
    ensures multiset(r) <= multiset(xs)
  {
    if |xs| == 0 then []
    else
      assert xs == [xs[0]] + xs[1..];
      if keep(xs[0]) then [xs[0]] + Filter(xs[1..], keep)
      else Filter(xs[1..], keep)
  }

  /** The filtered rows are the accepted rows in their original order: row i
      of the result is the row at the i-th accepted position. */
  lemma FilterInOrder<T>(xs: seq<T>, keep: T -> bool)
    ensures |Filter(xs, keep)| == |Positions(xs, keep)|
    ensures forall i :: 0 <= i < |Filter(xs, keep)| ==> Filter(xs, keep)[i] == xs[Positions(xs, keep)[i]]
  {
    FilterFrom(xs, keep, 0);
    assert xs[0..] == xs;
  }

  lemma {:induction false} FilterFrom<T>(xs: seq<T>, keep: T -> bool, from: nat)
    requires from <= |xs|
    ensures |Filter(xs[from..], keep)| == |PositionsFrom(xs, keep, from)|
    ensures forall i :: 0 <= i < |Filter(xs[from..], keep)| ==>
      Filter(xs[from..], keep)[i] == xs[PositionsFrom(xs, keep, from)[i]]
    decreases |xs| - from
  {
    if from < |xs| {
      FilterFrom(xs, keep, from + 1);
      FilterStep(xs, keep, from, Filter(xs[from + 1..], keep), PositionsFrom(xs, keep, from + 1));
    }
  }

  /** One row more in front of the suffix from `from + 1`. */
  lemma FilterStep<T>(xs: seq<T>, keep: T -> bool, from: nat, rest: seq<T>, p: seq<nat>)
    requires from < |xs| && rest == Filter(xs[from + 1..], keep) && p == PositionsFrom(xs, keep, from + 1)
    requires |rest| == |p| && forall i :: 0 <= i < |rest| ==> rest[i] == xs[p[i]]
    ensures |Filter(xs[from..], keep)| == |PositionsFrom(xs, keep, from)|
    ensures forall i :: 0 <= i < |Filter(xs[from..], keep)| ==>
      Filter(xs[from..], keep)[i] == xs[PositionsFrom(xs, keep, from)[i]]
  {
    var r := Filter(xs[from..], keep);
    var q := PositionsFrom(xs, keep, from);
    assert xs[from..][1..] == xs[from + 1..];
    if keep(xs[from]) {
      assert r == [xs[from]] + rest;
      assert q == [from] + p;
      forall i | 0 <= i < |r|
        ensures r[i] == xs[q[i]]
      {
        if i > 0 {
          assert r[i] == rest[i - 1] && q[i] == p[i - 1];
        }
      }
    } else {
      assert r == rest;
      assert q == p;
    }
  }

  /** `count()` of a `where`. */
  function Count<T>(xs: seq<T>, keep: T -> bool): (n: nat)
    ensures n <= |xs|
    ensures n == |Filter(xs, keep)|
    ensures n == 0 <==> forall i :: 0 <= i < |xs| ==> !keep(xs[i])
  {
    if |xs| == 0 then 0
    else (if keep(xs[0]) then 1 else 0) + Count(xs[1..], keep)
  }

  /** A filter that keeps everything is the identity. */
  lemma {:induction false} FilterAll<T>(xs: seq<T>, keep: T -> bool)
    requires forall i :: 0 <= i < |xs| ==> keep(xs[i])
    ensures Filter(xs, keep) == xs
    decreases |xs|
  {
    if |xs| > 0 {
      FilterAll(xs[1..], keep);
    }
  }

  /** Two conditions that never hold together count no more than all rows. */
  lemma {:induction false} CountDisjoint<T>(xs: seq<T>, a: T -> bool, b: T -> bool)
    requires forall i :: 0 <= i < |xs| ==> !(a(xs[i]) && b(xs[i]))
    ensures Count(xs, a) + Count(xs, b) <= |xs|
    decreases |xs|
  {
    if |xs| > 0 {
      CountDisjoint(xs[1..], a, b);
    }
  }

  /** Conditions that cover every row exactly once count all rows. */
  lemma {:induction false} CountPartition<T>(xs: seq<T>, a: T -> bool, b: T -> bool, c: T -> bool)
    requires forall i :: 0 <= i < |xs| ==>
      (if a(xs[i]) then 1 else 0) + (if b(xs[i]) then 1 else 0) + (if c(xs[i]) then 1 else 0) == 1
    ensures Count(xs, a) + Count(xs, b) + Count(xs, c) == |xs|
    decreases |xs|
  {
    if |xs| > 0 {
      CountPartition(xs[1..], a, b, c);
    }
  }

  /** Rows ordered by `created_at` descending. */
  predicate NewestFirst<T>(xs: seq<T>, at: T -> Timestamp) {
    forall i, j :: 0 <= i < j < |xs| ==> NotBefore(at(xs[i]), at(xs[j]))
  }

  function Insert<T>(x: T, xs: seq<T>, at: T -> Timestamp): (r: seq<T>)
    requires NewestFirst(xs, at)
    ensures NewestFirst(r, at)
    ensures multiset(r) == multiset(xs) + multiset{x}
    ensures |r| == |xs| + 1
  {
    if |xs| == 0 then [x]
    else if NotBefore(at(x), at(xs[0])) then
      InsertFront(x, xs, at);
      [x] + xs
    else
      var rest := Insert(x, xs[1..], at);
      assert xs == [xs[0]] + xs[1..];
      InsertBehind(x, xs, rest, at);
      [xs[0]] + rest
  }

  /** A row no older than the newest row goes in front. */
  lemma InsertFront<T>(x: T, xs: seq<T>, at: T -> Timestamp)
    requires NewestFirst(xs, at) && |xs| > 0 && NotBefore(at(x), at(xs[0]))
    ensures NewestFirst([x] + xs, at)
  {
    forall j | 0 <= j < |xs|
      ensures NotBefore(at(x), at(xs[j]))
    {
      NotBeforeTotalOrder(at(x), at(xs[0]), at(xs[j]));
    }
  }

  /** An older row goes behind the head, which stays first. */
  lemma InsertBehind<T>(x: T, xs: seq<T>, rest: seq<T>, at: T -> Timestamp)
    requires NewestFirst(xs, at) && |xs| > 0 && !NotBefore(at(x), at(xs[0]))
    requires NewestFirst(rest, at) && multiset(rest) == multiset(xs[1..]) + multiset{x}
    ensures NewestFirst([xs[0]] + rest, at)
  {
    NotBeforeTotalOrder(at(xs[0]), at(x), at(x));
    forall j | 0 <= j < |rest|
      ensures NotBefore(at(xs[0]), at(rest[j]))
    {
      var y := rest[j];
      assert y in multiset(rest);
      if y != x {
        assert y in multiset(xs[1..]);
        var i :| 0 <= i < |xs[1..]| && xs[1..][i] == y;
        assert xs[i + 1] == y;
      }
    }
    var r := [xs[0]] + rest;
    forall i, j | 0 <= i < j < |r|
      ensures NotBefore(at(r[i]), at(r[j]))
    {
      if i > 0 {
        assert r[i] == rest[i - 1] && r[j] == rest[j - 1];
      } else {
        assert r[j] == rest[j - 1];
      }
    }
  }

  /** `latest()`: the rows in newest-first order of `created_at`; rows with the
      same timestamp keep their original relative order. */
  function SortNewestFirst<T>(xs: seq<T>, at: T -> Timestamp): (r: seq<T>)
    ensures NewestFirst(r, at)
    ensures multiset(r) == multiset(xs)
    ensures |r| == |xs|
  {
    if |xs| == 0 then []
    else
      assert xs == [xs[0]] + xs[1..];
      Insert(xs[0], SortNewestFirst(xs[1..], at), at)
  }

  /** `limit(k)`: the first `k` rows. */
  function Take<T>(xs: seq<T>, k: nat): (r: seq<T>)
    ensures |r| == if |xs| < k then |xs| else k
    ensures r == xs[..|r|]
  {
    if |xs| <= k then xs else xs[..k]
  }

  /** `latest()->limit(k)` picks the k newest rows: they come out newest first,
      none is invented, and no row left out is newer than one that was taken. */
  lemma LatestLimit<T>(xs: seq<T>, at: T -> Timestamp, k: nat)
    ensures var top := Take(SortNewestFirst(xs, at), k);
      && |top| == (if |xs| < k then |xs| else k)
      && NewestFirst(top, at)
      && multiset(top) <= multiset(xs)
      && forall x, y :: x in xs && x !in top && y in top ==> NotBefore(at(y), at(x))
  {
    var r := SortNewestFirst(xs, at);
    var top := Take(r, k);
    assert r == top + r[|top|..];
    assert multiset(r) == multiset(top) + multiset(r[|top|..]);
    PrefixIsNewest(r, |top|, at);
    forall x | x in xs
      ensures x in r
    {
      assert x in multiset(xs);
    }
  }

  /** In a newest-first sequence, the first m rows are no older than any other. */
  lemma PrefixIsNewest<T>(r: seq<T>, m: nat, at: T -> Timestamp)
    requires NewestFirst(r, at) && m <= |r|
    ensures NewestFirst(r[..m], at)
    ensures forall x, y :: x in r && x !in r[..m] && y in r[..m] ==> NotBefore(at(y), at(x))
  {
    forall x, y | x in r && x !in r[..m] && y in r[..m]
      ensures NotBefore(at(y), at(x))
    {
      var j :| 0 <= j < |r| && r[j] == x;
      var i :| 0 <= i < m && r[..m][i] == y;
    }
  }

  /** One page of a length-aware paginator. `from` and `to` are the 1-based
      positions of the first and last row shown, absent on an empty page. */
  datatype Paginated<T> = Paginated(
    data: seq<T>,
    currentPage: nat,
    lastPage: nat,
    perPage: nat,
    total: nat,
    from: Option<nat>,
    to: Option<nat>)

  /** The `page` query parameter: an integer of at least 1, otherwise page 1. */
  function CurrentPage(requested: Option<int>): (p: nat)
    ensures p >= 1
    ensures requested.Some? && requested.value >= 1 ==> p == requested.value
    ensures requested.None? || requested.value < 1 ==> p == 1
  {
    if requested.Some? && requested.value >= 1 then requested.value else 1
  }

  /** max(ceil(total / perPage), 1). */
  function LastPage(total: nat, perPage: nat): (last: nat)
    requires perPage > 0
    ensures last >= 1
  {
    if total == 0 then 1 else (total + perPage - 1) / perPage
  }

  /** The last page is the fewest pages of `perPage` rows that hold every row. */
  lemma LastPageBounds(total: nat, perPage: nat)
    requires perPage > 0
    ensures var last := LastPage(total, perPage);
      && ((last - 1) * perPage < total || (total == 0 && last == 1))
      && total <= last * perPage
  {
  }

  /** A page has rows exactly when it lies between 1 and the last page of a
      non-empty listing. */
  lemma PageInRange(page: nat, total: nat, perPage: nat)
    requires perPage > 0 && page >= 1
    ensures Offset(page, perPage) < total <==> page <= LastPage(total, perPage) && total > 0
  {
    var last := LastPage(total, perPage);
    LastPageBounds(total, perPage);
    if page <= last && total > 0 {
      MulMonotone(page - 1, last - 1, perPage);
    }
    if page > last {
      MulMonotone(last, page - 1, perPage);
    }
  }

  lemma MulMonotone(a: nat, b: nat, c: nat)
    requires a <= b
    ensures a * c <= b * c
  {
  }

  /** `offset(lo)->limit(n)`. */
  function Slice<T>(xs: seq<T>, lo: nat, n: nat): (r: seq<T>)
    ensures |r| <= n
    ensures r == [] || lo + |r| <= |xs|
    ensures if lo < |xs| then r == xs[lo..lo + |r|] && (|r| == n || lo + |r| == |xs|) else r == []
    ensures |r| > 0 <==> lo < |xs| && n > 0
  {
    if lo >= |xs| then []
    else if lo + n < |xs| then xs[lo..lo + n]
    else xs[lo..]
  }

  /** Row i of a slice is row lo + i of the whole. */
  lemma SliceAt<T>(xs: seq<T>, lo: nat, n: nat)
    ensures forall i :: 0 <= i < |Slice(xs, lo, n)| ==> lo + i < |xs| && Slice(xs, lo, n)[i] == xs[lo + i]
  {
    var r := Slice(xs, lo, n);
    if lo < |xs| {
      assert r == xs[lo..lo + |r|];
    }
  }

  /** The number of rows before page `page`. */
  function Offset(page: nat, perPage: nat): nat
    requires page >= 1
  {
    (page - 1) * perPage
  }

  function Paginate<T>(xs: seq<T>, requested: Option<int>, perPage: nat): (p: Paginated<T>)
    requires perPage > 0
    ensures p.total == |xs| && p.perPage == perPage
    ensures p.currentPage == CurrentPage(requested) && p.currentPage >= 1
    ensures p.lastPage == LastPage(|xs|, perPage)
    ensures p.data == Slice(xs, Offset(p.currentPage, perPage), perPage)
    ensures |p.data| > 0 <==> p.currentPage <= p.lastPage && |xs| > 0
    ensures p.from.Some? <==> |p.data| > 0
    ensures p.from.Some? ==> p.from.value == Offset(p.currentPage, perPage) + 1
    ensures p.from.Some? ==> p.to.Some? && p.to.value == p.from.value + |p.data| - 1
  {
    var page := CurrentPage(requested);
    var lo := Offset(page, perPage);
    var data := Slice(xs, lo, perPage);
    var last := LastPage(|xs|, perPage);
    PageInRange(page, |xs|, perPage);
    assert |data| > 0 <==> page <= last && |xs| > 0;
    Paginated(
      data, page, last, perPage, |xs|,
      if |data| > 0 then Some(lo + 1) else None,
      if |data| > 0 then Some(lo + |data|) else None)
  }

  /** The rows of pages 1 to k, one page after another. */
  function PagesUpTo<T>(xs: seq<T>, perPage: nat, k: nat): seq<T>
    requires perPage > 0
  {
    if k == 0 then [] else PagesUpTo(xs, perPage, k - 1) + Paginate(xs, Some(k), perPage).data
  }

  /** The first `n` rows, or all of them when there are fewer. */
  function Cut<T>(xs: seq<T>, n: nat): (r: seq<T>)
    ensures |r| == if n < |xs| then n else |xs|
  {
    if n < |xs| then xs[..n] else xs
  }

  /** Pages 1 to k hold exactly the rows before page k + 1. */
  lemma {:induction false} PagesUpToPrefix<T>(xs: seq<T>, perPage: nat, k: nat)
    requires perPage > 0
    ensures PagesUpTo(xs, perPage, k) == Cut(xs, Offset(k + 1, perPage))
  {
    if k > 0 {
      PagesUpToPrefix(xs, perPage, k - 1);
      var lo := Offset(k, perPage);
      OffsetStep(k, perPage);
      assert Paginate(xs, Some(k), perPage).data == Slice(xs, lo, perPage);
      CutThenSlice(xs, lo, perPage);
    }
  }

  lemma OffsetStep(k: nat, perPage: nat)
    requires k >= 1
    ensures Offset(k + 1, perPage) == Offset(k, perPage) + perPage
  {
  }

  /** The rows before `lo` followed by the next `n` rows are the rows before `lo + n`. */
  lemma CutThenSlice<T>(xs: seq<T>, lo: nat, n: nat)
    ensures Cut(xs, lo) + Slice(xs, lo, n) == Cut(xs, lo + n)
  {
    if lo < |xs| {
      if lo + n < |xs| {
        assert xs[..lo] + xs[lo..lo + n] == xs[..lo + n];
      } else {
        assert xs[..lo] + xs[lo..] == xs;
      }
    }
  }

  /** Walking pages 1 to lastPage visits every row exactly once, in order. */
  lemma PagesCoverAll<T>(xs: seq<T>, perPage: nat)
    requires perPage > 0
    ensures PagesUpTo(xs, perPage, LastPage(|xs|, perPage)) == xs
  {
    var last := LastPage(|xs|, perPage);
    LastPageBounds(|xs|, perPage);
    PagesUpToPrefix(xs, perPage, last);
    assert Offset(last + 1, perPage) == last * perPage;
  }
}

=== FILE: pagination_controls.dfy ===
/** The pagination view-model of resources/js/Components/PaginationControls.tsx:
    the "Showing X to Y of Z results" range, the page-number list with gaps,
    and the previous/next buttons. */
module PaginationControls {
  import opened Results
  import opened Listing

  /** One entry of the page list: a page button or a '...' gap. */
  datatype Item = Page(n: int) | Ellipsis

  const MaxVisiblePages: int := 5

  /** First item shown on the current page, 1-based. */
  function StartItem(currentPage: int, perPage: int): int {
    (currentPage - 1) * perPage + 1
  }

  /** Last item shown on the current page. */
  function EndItem(currentPage: int, perPage: int, total: int): int {
    if currentPage * perPage < total then currentPage * perPage else total
  }

  /** Page buttons lo, lo+1, ..., hi. */
  function Run(lo: int, hi: int): (r: seq<Item>)
    ensures |r| == if hi < lo then 0 else hi - lo + 1
    ensures forall i :: 0 <= i < |r| ==> r[i] == Page(lo + i)
    decreases hi - lo
  {
    if hi < lo then [] else [Page(lo)] + Run(lo + 1, hi)
  }

  /** The consecutive pages shown around the current one when there are more
      than five pages: two either side, shifted to stay five wide near either end. */
  function Window(currentPage: int, lastPage: int): (w: (int, int)) {
    var start := if 1 < currentPage - 2 then currentPage - 2 else 1;
    var end := if lastPage < currentPage + 2 then lastPage else currentPage + 2;
    var end' := if currentPage <= 3 then (if lastPage < 5 then lastPage else 5) else end;
    var start' := if currentPage >= lastPage - 2 then (if 1 < lastPage - 4 then lastPage - 4 else 1) else start;
    (start', end')
  }

  /** Page 1 and, when a page is skipped after it, a gap. */
  function Head(start: int): seq<Item> {
    if start > 1 then [Page(1)] + (if start > 2 then [Ellipsis] else []) else []
  }

  /** A gap when a page is skipped, and the last page. */
  function Tail(end: int, lastPage: int): seq<Item> {
    if end < lastPage then (if end < lastPage - 1 then [Ellipsis] else []) + [Page(lastPage)] else []
  }

  /** getPageNumbers. */
  function PageNumbers(currentPage: int, lastPage: int): seq<Item> {
    if lastPage <= MaxVisiblePages then Run(1, lastPage)
    else
      var (start, end) := Window(currentPage, lastPage);
      Head(start) + Run(start, end) + Tail(end, lastPage)
  }

  /** A previous/next button: whether it is disabled and the page it asks for. */
  datatype Button = Button(disabled: bool, target: int)

  /** What the component renders. */
  datatype Controls = Controls(
    showingFrom: int,
    showingTo: int,
    total: int,
    previous: Button,
    next: Button,
    pages: seq<Item>)

  /** The component: nothing at all for a single page, otherwise the controls. */
  function Render(currentPage: int, lastPage: int, total: int, perPage: int): (r: Option<Controls>)
    ensures r.None? <==> lastPage <= 1
    ensures r.Some? ==> (r.value.previous.disabled <==> currentPage == 1)
    ensures r.Some? ==> (r.value.next.disabled <==> currentPage == lastPage)
    ensures r.Some? ==> r.value.previous.target == currentPage - 1 && r.value.next.target == currentPage + 1
    ensures r.Some? ==> r.value.pages == PageNumbers(currentPage, lastPage) && r.value.total == total
    ensures r.Some? ==> r.value.showingFrom == StartItem(currentPage, perPage)
    ensures r.Some? ==> r.value.showingTo == EndItem(currentPage, perPage, total)
  {
    if lastPage <= 1 then None
    else Some(Controls(
      StartItem(currentPage, perPage),
      EndItem(currentPage, perPage, total),
      total,
      Button(currentPage == 1, currentPage - 1),
      Button(currentPage == lastPage, currentPage + 1),
      PageNumbers(currentPage, lastPage)))
  }

  /** A page button is drawn highlighted exactly when it is the current page. */
  predicate Highlighted(item: Item, currentPage: int) {
    item.Page? && item.n == currentPage
  }

  // ---------------------------------------------------------------------------
  // Properties of the page list

  /** Page numbers strictly increase from left to right. */
  predicate Increasing(s: seq<Item>) {
    forall i, j :: 0 <= i < j < |s| && s[i].Page? && s[j].Page? ==> s[i].n < s[j].n
  }

  /** A gap sits between two page buttons that skip at least one page, and
      adjacent page buttons are consecutive pages. */
  predicate GapsExact(s: seq<Item>) {
    && (forall i :: 0 <= i < |s| && s[i].Ellipsis? ==>
          0 < i < |s| - 1 && s[i - 1].Page? && s[i + 1].Page? && s[i + 1].n > s[i - 1].n + 1)
    && (forall i :: 0 <= i < |s| - 1 && s[i].Page? && s[i + 1].Page? ==> s[i + 1].n == s[i].n + 1)
  }

  /** The number of page buttons. */
  function PageCount(s: seq<Item>): (n: nat)
    ensures n <= |s|
  {
    if |s| == 0 then 0 else (if s[0].Page? then 1 else 0) + PageCount(s[1..])
  }

  /** With five pages or fewer every page is listed and there is no gap. */
  lemma SmallPageList(currentPage: int, lastPage: int)
    requires lastPage <= MaxVisiblePages
    ensures PageNumbers(currentPage, lastPage) == Run(1, lastPage)
    ensures Ellipsis !in PageNumbers(currentPage, lastPage)
  {
  }

  /** With more than five pages the window is five consecutive pages within
      1..lastPage, and it holds the current page when that is in range. */
  lemma WindowShape(currentPage: int, lastPage: int)
    requires lastPage > MaxVisiblePages
    ensures var (start, end) := Window(currentPage, lastPage);
      && 1 <= start && end <= lastPage && end == start + 4
      && (1 <= currentPage <= lastPage ==> start <= currentPage <= end)
  {
  }

  /** The layout of a long list: Head, the five-page window, Tail. */
  lemma LargeLayout(currentPage: int, lastPage: int)
    requires lastPage > MaxVisiblePages
    ensures var (start, end) := Window(currentPage, lastPage);
      var s := PageNumbers(currentPage, lastPage);
      var h := |Head(start)|;
      && h <= 2 && |Tail(end, lastPage)| <= 2
      && |s| == h + 5 + |Tail(end, lastPage)|
      && s[..h] == Head(start)
      && (forall i :: h <= i < h + 5 ==> s[i] == Page(start + (i - h)))
      && s[h + 5..] == Tail(end, lastPage)
  {
    WindowShape(currentPage, lastPage);
    var (start, end) := Window(currentPage, lastPage);
    var s := PageNumbers(currentPage, lastPage);
    var h := |Head(start)|;
    assert s == Head(start) + Run(start, end) + Tail(end, lastPage);
    forall i | h <= i < h + 5
      ensures s[i] == Page(start + (i - h))
    {
      assert s[i] == Run(start, end)[i - h];
    }
  }

  /** A long list starts at page 1, ends at the last page, shows the current
      page, and its numbers strictly increase within 1..lastPage. */
  lemma LargePageListBounds(currentPage: int, lastPage: int)
    requires lastPage > MaxVisiblePages
    ensures var s := PageNumbers(currentPage, lastPage);
      && |s| >= 2 && s[0] == Page(1) && s[|s| - 1] == Page(lastPage)
      && (1 <= currentPage <= lastPage ==> Page(currentPage) in s)
      && (forall i :: 0 <= i < |s| && s[i].Page? ==> 1 <= s[i].n <= lastPage)
      && Increasing(s)
  {
    LayoutItems(currentPage, lastPage);
    WindowShape(currentPage, lastPage);
    var (start, end) := Window(currentPage, lastPage);
    var s := PageNumbers(currentPage, lastPage);
    var h := |Head(start)|;
    if 1 <= currentPage <= lastPage {
      assert s[h + (currentPage - start)] == Page(currentPage);
    }
  }

  /** A gap appears exactly where pages are skipped: before the window iff it
      starts after page 2, after it iff it ends before the second-to-last page;
      otherwise neighbouring buttons are consecutive pages. */
  lemma LargePageListGaps(currentPage: int, lastPage: int)
    requires lastPage > MaxVisiblePages
    ensures var (start, end) := Window(currentPage, lastPage);
      var s := PageNumbers(currentPage, lastPage);
      && (s[1] == Ellipsis <==> start > 2)
      && (s[|s| - 2] == Ellipsis <==> end < lastPage - 1)
      && GapsExact(s)
  {
    LayoutItems(currentPage, lastPage);
    WindowShape(currentPage, lastPage);
  }

  /** Every entry of a long list, read off its layout. */
  lemma LayoutItems(currentPage: int, lastPage: int)
    requires lastPage > MaxVisiblePages
    ensures var (start, end) := Window(currentPage, lastPage);
      var s := PageNumbers(currentPage, lastPage);
      && |s| == |Head(start)| + 5 + |Tail(end, lastPage)|
      && forall i :: 0 <= i < |s| ==> s[i] == ItemAt(start, end, lastPage, i)
  {
    LargeLayout(currentPage, lastPage);
    var (start, end) := Window(currentPage, lastPage);
    var s := PageNumbers(currentPage, lastPage);
    var h := |Head(start)|;
    var t := Tail(end, lastPage);
    forall i | 0 <= i < |s|
      ensures s[i] == ItemAt(start, end, lastPage, i)
    {
      if i < h { assert s[i] == Head(start)[i]; }
      if h + 5 <= i { assert s[i] == t[i - h - 5]; }
    }
  }

  /** Entry i of a long list, read off its layout. */
  function ItemAt(start: int, end: int, lastPage: int, i: int): Item {
    var h := |Head(start)|;
    if i < h then (if i == 0 then Page(1) else Ellipsis)
    else if i < h + 5 then Page(start + (i - h))
    else if i == h + 5 && end < lastPage - 1 then Ellipsis
    else Page(lastPage)
  }

  /** Every page of 1..lastPage is listed exactly when it is the first, the
      last, or inside the window. */
  lemma LargePageListMembers(currentPage: int, lastPage: int, p: int)
    requires lastPage > MaxVisiblePages && 1 <= p <= lastPage
    ensures var (start, end) := Window(currentPage, lastPage);
      Page(p) in PageNumbers(currentPage, lastPage) <==> p == 1 || p == lastPage || start <= p <= end
  {
    LargeLayout(currentPage, lastPage);
    WindowShape(currentPage, lastPage);
    var (start, end) := Window(currentPage, lastPage);
    var s := PageNumbers(currentPage, lastPage);
    var h := |Head(start)|;
    if start <= p <= end {
      assert s[h + (p - start)] == Page(p);
    }
    if p == 1 && start > 1 {
      assert s[0] == Page(1);
    }
    if p == lastPage && end < lastPage {
      assert s[|s| - 1] == Page(lastPage);
    }
    if Page(p) in s {
      var i :| 0 <= i < |s| && s[i] == Page(p);
      if i < h { assert s[i] == Head(start)[i]; }
      if h + 5 <= i { assert s[i] == Tail(end, lastPage)[i - h - 5]; }
    }
  }

  /** At most seven page buttons and nine entries in all. */
  lemma LargePageListSize(currentPage: int, lastPage: int)
    requires lastPage > MaxVisiblePages
    ensures |PageNumbers(currentPage, lastPage)| <= 9
    ensures PageCount(PageNumbers(currentPage, lastPage)) <= 7
  {
    LargeLayout(currentPage, lastPage);
    var (start, end) := Window(currentPage, lastPage);
    var s := PageNumbers(currentPage, lastPage);
    PageCountAppend(Head(start), Run(start, end));
    PageCountAppend(Head(start) + Run(start, end), Tail(end, lastPage));
    PageCountRun(start, end);
    assert PageCount(Head(start)) <= 1 by {
      if start > 1 { assert Head(start)[1..] == (if start > 2 then [Ellipsis] else []); }
    }
    assert PageCount(Tail(end, lastPage)) <= 1 by {
      if end < lastPage && end < lastPage - 1 { assert Tail(end, lastPage)[1..] == [Page(lastPage)]; }
    }
  }

  lemma {:induction false} PageCountAppend(a: seq<Item>, b: seq<Item>)
    ensures PageCount(a + b) == PageCount(a) + PageCount(b)
    decreases |a|
  {
    if |a| == 0 {
      assert a + b == b;
    } else {
      assert (a + b)[1..] == a[1..] + b;
      PageCountAppend(a[1..], b);
    }
  }

  lemma {:induction false} PageCountRun(lo: int, hi: int)
    ensures PageCount(Run(lo, hi)) == |Run(lo, hi)|
    decreases hi - lo
  {
    if lo <= hi {
      PageCountRun(lo + 1, hi);
    }
  }

  /** Whenever the list is shown and the current page is in range, exactly one
      entry is highlighted: the current page's button. */
  lemma ExactlyOneHighlighted(currentPage: int, lastPage: int)
    requires 1 <= currentPage <= lastPage && lastPage > 1
    ensures var s := PageNumbers(currentPage, lastPage);
      exists i :: 0 <= i < |s| && Highlighted(s[i], currentPage) &&
        forall j :: 0 <= j < |s| && j != i ==> !Highlighted(s[j], currentPage)
  {
    var s := PageNumbers(currentPage, lastPage);
    if lastPage <= MaxVisiblePages {
      assert Highlighted(s[currentPage - 1], currentPage);
    } else {
      LargePageListBounds(currentPage, lastPage);
      var i :| 0 <= i < |s| && s[i] == Page(currentPage);
      forall j | 0 <= j < |s| && j != i
        ensures !Highlighted(s[j], currentPage)
      {
        if s[j].Page? {
          if j < i { assert s[j].n < s[i].n; } else { assert s[i].n < s[j].n; }
        }
      }
    }
  }

  /** An enabled previous or next button asks for a page within 1..lastPage. */
  lemma NavigationStaysInRange(currentPage: int, lastPage: int, total: int, perPage: int)
    requires 1 <= currentPage <= lastPage && lastPage > 1
    ensures var c := Render(currentPage, lastPage, total, perPage).value;
      && (!c.previous.disabled ==> 1 <= c.previous.target <= lastPage)
      && (!c.next.disabled ==> 1 <= c.next.target <= lastPage)
  {
  }

  // ---------------------------------------------------------------------------
  // Agreement with the paginator the pages receive

  /** On a page that has rows, the component's "Showing X to Y of Z" is the
      paginator's from, to and total. */
  lemma ShowingMatchesPaginator<T>(xs: seq<T>, requested: Option<int>, perPage: nat)
    requires perPage > 0
    requires |Paginate(xs, requested, perPage).data| > 0
    ensures var p := Paginate(xs, requested, perPage);
      && StartItem(p.currentPage, perPage) == p.from.value
      && EndItem(p.currentPage, perPage, p.total) == p.to.value
  {
    var p := Paginate(xs, requested, perPage);
    var lo := Offset(p.currentPage, perPage);
    assert p.currentPage * perPage == lo + perPage;
  }

  /** The examples of the component's tests: 25 results at 10 per page show
      1 to 10 on page one and 21 to 25 on page three. */
  lemma ShowingExamples()
    ensures Render(1, 3, 25, 10).value.showingFrom == 1 && Render(1, 3, 25, 10).value.showingTo == 10
    ensures Render(3, 3, 25, 10).value.showingFrom == 21 && Render(3, 3, 25, 10).value.showingTo == 25
    ensures Render(1, 1, 5, 10).None?
    ensures PageNumbers(10, 20) == [Page(1), Ellipsis, Page(8), Page(9), Page(10), Page(11), Page(12), Ellipsis, Page(20)]
  {
  }
}

=== FILE: records.dfy ===
/** The two Eloquent models, Department and Student (app/Models/Department.php,
    app/Models/Student.php), the record store holding them, and the model-level
    helpers: relations, scopes, derived attributes and mass assignment. */
module Records {
  import opened Results
  import opened Text
  import opened Timestamps
  import opened Listing

  type Id = nat

  datatype Department = Department(
    id: Id,
    name: string,
    description: string,
    duration: string,
    status: string,
    createdAt: Timestamp)

  datatype Student = Student(
    id: Id,
    name: string,
    email: string,
    phone: string,
    address: string,
    gender: string,
    departmentId: Id,
    createdAt: Timestamp)

  /** The two tables, in row (insertion) order, and the next auto-increment ids. */
  datatype Database = Database(
    departments: seq<Department>,
    students: seq<Student>,
    nextDepartmentId: Id,
    nextStudentId: Id)

  /** The request attributes handed to a model: column name to text. */
  type Attributes = map<string, string>

  const Statuses: seq<string> := ["active", "inactive"]
  const Genders: seq<string> := ["male", "female", "other"]

  /** `$fillable` of Department. */
  const DepartmentFillable: set<string> := {"name", "description", "duration", "status"}

  /** `$fillable` of Student. */
  const StudentFillable: set<string> := {"name", "email", "phone", "address", "gender", "department_id"}

  function DepartmentCreatedAt(d: Department): Timestamp { d.createdAt }
  function StudentCreatedAt(st: Student): Timestamp { st.createdAt }

  // ---------------------------------------------------------------------------
  // Database invariant

  predicate WellFormedDepartment(d: Department) {
    && !IsBlank(d.name) && |d.name| <= 255
    && !IsBlank(d.description)
    && !IsBlank(d.duration) && |d.duration| <= 255
    && d.status in Statuses
  }

  predicate WellFormedStudent(st: Student) {
    && !IsBlank(st.name) && |st.name| <= 255
    && !IsBlank(st.email)
    && !IsBlank(st.phone) && |st.phone| <= 20
    && !IsBlank(st.address)
    && st.gender in Genders
  }

  /** What the validated handlers keep true of the store: ids increase in row
      order and stay below the next auto-increment value, every row has its
      required fields, keeps the length limits and has an allowed status or
      gender, and no two students share an email. The email syntax rule and
      the `exists` rule on department_id are not part of it: a department may
      have been deleted since. */
  predicate Valid(s: Database) {
    && (forall i, j :: 0 <= i < j < |s.departments| ==> s.departments[i].id < s.departments[j].id)
    && (forall i :: 0 <= i < |s.departments| ==>
          s.departments[i].id < s.nextDepartmentId && WellFormedDepartment(s.departments[i]))
    && (forall i, j :: 0 <= i < j < |s.students| ==> s.students[i].id < s.students[j].id)
    && (forall i :: 0 <= i < |s.students| ==>
          s.students[i].id < s.nextStudentId && WellFormedStudent(s.students[i]))
    && (forall i, j :: 0 <= i < j < |s.students| ==> s.students[i].email != s.students[j].email)
  }

  const Empty: Database := Database([], [], 1, 1)

  // ---------------------------------------------------------------------------
  // Lookups (route model binding, `exists`, `belongsTo`)

  /** The row holding department `id`, if any. */
  function FindDepartment(ds: seq<Department>, id: Id): (r: Option<nat>)
    ensures r.Some? ==> r.value < |ds| && ds[r.value].id == id
    ensures r.None? <==> forall i :: 0 <= i < |ds| ==> ds[i].id != id
    ensures r.Some? ==> forall i :: 0 <= i < r.value ==> ds[i].id != id
  {
    if |ds| == 0 then None
    else if ds[0].id == id then Some(0)
    else match FindDepartment(ds[1..], id)
      case None => None
      case Some(i) => Some(i + 1)
  }

  /** The row holding student `id`, if any. */
  function FindStudent(sts: seq<Student>, id: Id): (r: Option<nat>)
    ensures r.Some? ==> r.value < |sts| && sts[r.value].id == id
    ensures r.None? <==> forall i :: 0 <= i < |sts| ==> sts[i].id != id
    ensures r.Some? ==> forall i :: 0 <= i < r.value ==> sts[i].id != id
  {
    if |sts| == 0 then None
    else if sts[0].id == id then Some(0)
    else match FindStudent(sts[1..], id)
      case None => None
      case Some(i) => Some(i + 1)
  }

  predicate DepartmentExists(s: Database, id: Id) {
    exists i :: 0 <= i < |s.departments| && s.departments[i].id == id
  }

  /** `belongsTo(Department::class)`: the department whose id is the student's
      department_id, or none when it no longer exists. */
  function DepartmentOf(s: Database, st: Student): (r: Option<Department>)
    ensures r.Some? <==> DepartmentExists(s, st.departmentId)
    ensures r.Some? ==> r.value in s.departments && r.value.id == st.departmentId
  {
    match FindDepartment(s.departments, st.departmentId)
    case None => None
    case Some(i) => Some(s.departments[i])
  }

  /** `hasMany(Student::class)`: the students whose department_id is `d`'s id. */
  function StudentsOf(s: Database, d: Department): (r: seq<Student>)
    ensures forall i :: 0 <= i < |r| ==> r[i] in s.students && r[i].departmentId == d.id
    ensures forall i :: 0 <= i < |s.students| && s.students[i].departmentId == d.id ==> s.students[i] in r
    ensures |r| == |Positions(s.students, InDepartment(d.id))|
    ensures forall i :: 0 <= i < |r| ==> r[i] == s.students[Positions(s.students, InDepartment(d.id))[i]]
  {
    FilterInOrder(s.students, InDepartment(d.id));
    Filter(s.students, InDepartment(d.id))
  }

  /** The `where('department_id', id)` condition of the relation. */
  function InDepartment(id: Id): Student -> bool {
    (st: Student) => st.departmentId == id
  }

  /** `belongsTo` and `hasMany` are two views of one relation: a student is among
      a department's students exactly when that department is the student's. */
  lemma RelationInverse(s: Database, d: Department, st: Student)
    requires Valid(s) && d in s.departments && st in s.students
    ensures st in StudentsOf(s, d) <==> DepartmentOf(s, st) == Some(d)
  {
    if DepartmentOf(s, st) == Some(d) {
      assert st.departmentId == d.id;
    }
    if st in StudentsOf(s, d) {
      var r := DepartmentOf(s, st);
      var k :| 0 <= k < |s.departments| && s.departments[k] == d;
      var j :| 0 <= j < |s.departments| && s.departments[j] == r.value;
      DepartmentIdsUnique(s, j, k);
    }
  }

  lemma DepartmentIdsUnique(s: Database, i: nat, j: nat)
    requires Valid(s) && i < |s.departments| && j < |s.departments|
    requires s.departments[i].id == s.departments[j].id
    ensures i == j
  {
  }

  /** The rows without row k, in order. */
  function RemoveAt<T>(xs: seq<T>, k: nat): (r: seq<T>)
    requires k < |xs|
    ensures |r| == |xs| - 1
    ensures forall i :: 0 <= i < |r| ==> r[i] == xs[if i < k then i else i + 1]
  {
    xs[..k] + xs[k + 1..]
  }

  /** The appended `student_count` attribute, recomputed on every read. */
  function StudentCount(s: Database, d: Department): (n: nat)
    ensures n == |StudentsOf(s, d)|
    ensures n == |Positions(s.students, InDepartment(d.id))|
    ensures n <= |s.students|
  {
    Count(s.students, InDepartment(d.id))
  }

  // ---------------------------------------------------------------------------
  // Query scopes

  predicate IsActive(d: Department) { d.status == "active" }

  /** `scopeActive`, and the `where('status', 'active')` of the controllers. */
  function ActiveDepartments(ds: seq<Department>): (r: seq<Department>)
    ensures |r| <= |ds|
    ensures forall i :: 0 <= i < |r| ==> r[i] in ds && r[i].status == "active"
    ensures forall i :: 0 <= i < |ds| && ds[i].status == "active" ==> ds[i] in r
    ensures |r| == |Positions(ds, IsActive)|
    ensures forall i :: 0 <= i < |r| ==> r[i] == ds[Positions(ds, IsActive)[i]]
  {
    FilterInOrder(ds, IsActive);
    Filter(ds, IsActive)
  }

  /** The `where('name', 'like', "%search%")` condition. */
  function NameMatches(search: string): Department -> bool {
    (d: Department) => Contains(d.name, search)
  }

  /** `scopeSearch`: departments whose name contains `search`, in their
      original order. */
  function SearchDepartments(ds: seq<Department>, search: string): (r: seq<Department>)
    ensures |r| <= |ds| && multiset(r) <= multiset(ds)
    ensures forall i :: 0 <= i < |r| ==> r[i] in ds && Contains(r[i].name, search)
    ensures forall i :: 0 <= i < |ds| && Contains(ds[i].name, search) ==> ds[i] in r
    ensures |r| == |Positions(ds, NameMatches(search))|
    ensures forall i :: 0 <= i < |r| ==> r[i] == ds[Positions(ds, NameMatches(search))[i]]
  {
    FilterInOrder(ds, NameMatches(search));
    Filter(ds, NameMatches(search))
  }

  /** Every name contains the empty string, so an empty search keeps every
      department, in order. */
  lemma SearchEmptyKeepsAll(ds: seq<Department>)
    ensures SearchDepartments(ds, "") == ds
  {
    forall i | 0 <= i < |ds|
      ensures Contains(ds[i].name, "")
    {
      assert IsPrefix("", ds[i].name);
    }
    FilterAll(ds, NameMatches(""));
  }

  /** A department is found by any piece of its name. */
  lemma SearchFindsNamePiece(ds: seq<Department>, k: nat, lo: nat, hi: nat)
    requires k < |ds| && lo <= hi <= |ds[k].name|
    ensures ds[k] in SearchDepartments(ds, ds[k].name[lo..hi])
  {
    ContainsAt(ds[k].name, ds[k].name[lo..hi], lo);
  }

  // ---------------------------------------------------------------------------
  // Mass assignment

  function Assign(attrs: Attributes, fillable: set<string>, key: string, current: string): string {
    if key in fillable && key in attrs then attrs[key] else current
  }

  /** `fill($attributes)` on a student: each fillable key present replaces its
      column; `department_id` text is stored as the number it denotes. */
  function FillStudent(st: Student, attrs: Attributes): (r: Student)
    ensures r.id == st.id && r.createdAt == st.createdAt
  {
    var dept := if "department_id" in attrs then ParseNat(attrs["department_id"]) else None;
    st.(
      name := Assign(attrs, StudentFillable, "name", st.name),
      email := Assign(attrs, StudentFillable, "email", st.email),
      phone := Assign(attrs, StudentFillable, "phone", st.phone),
      address := Assign(attrs, StudentFillable, "address", st.address),
      gender := Assign(attrs, StudentFillable, "gender", st.gender),
      departmentId := if dept.Some? then dept.value else st.departmentId)
  }

  /** `fill($attributes)` on a department. */
  function FillDepartment(d: Department, attrs: Attributes): (r: Department)
    ensures r.id == d.id && r.createdAt == d.createdAt
  {
    d.(
      name := Assign(attrs, DepartmentFillable, "name", d.name),
      description := Assign(attrs, DepartmentFillable, "description", d.description),
      duration := Assign(attrs, DepartmentFillable, "duration", d.duration),
      status := Assign(attrs, DepartmentFillable, "status", d.status))
  }

  /** Only the fillable keys reach a student: attributes that agree on
      name, email, phone, address, gender and department_id fill the same record,
      whatever else (an id, a created_at, ...) they carry. */
  lemma FillStudentOnlyFillable(st: Student, a: Attributes, b: Attributes)
    requires forall k :: k in StudentFillable ==> (k in a <==> k in b) && (k in a ==> a[k] == b[k])
    ensures FillStudent(st, a) == FillStudent(st, b)
  {
    assert "department_id" in StudentFillable;
  }

  /** Only name, description, duration and status reach a department. */
  lemma FillDepartmentOnlyFillable(d: Department, a: Attributes, b: Attributes)
    requires forall k :: k in DepartmentFillable ==> (k in a <==> k in b) && (k in a ==> a[k] == b[k])
    ensures FillDepartment(d, a) == FillDepartment(d, b)
  {
  }

  /** Filling with every fillable key present sets every column from the
      attributes. */
  lemma FillStudentAll(st: Student, attrs: Attributes, dept: Id)
    requires StudentFillable <= attrs.Keys
    requires ParseNat(attrs["department_id"]) == Some(dept)
    ensures FillStudent(st, attrs) == Student(st.id, attrs["name"], attrs["email"], attrs["phone"],
      attrs["address"], attrs["gender"], dept, st.createdAt)
  {
  }

  lemma FillDepartmentAll(d: Department, attrs: Attributes)
    requires DepartmentFillable <= attrs.Keys
    ensures FillDepartment(d, attrs) == Department(d.id, attrs["name"], attrs["description"],
      attrs["duration"], attrs["status"], d.createdAt)
  {
  }

  // ---------------------------------------------------------------------------
  // Serialised rows (`$appends`, eager-loaded relations)

  /** A student as the pages receive it: with its department loaded and the
      computed registered_at attribute. */
  datatype StudentRow = StudentRow(student: Student, department: Option<Department>, registeredAt: string)

  /** A department as the pages receive it, with the appended student_count. */
  datatype DepartmentRow = DepartmentRow(department: Department, studentCount: nat)

  function StudentRowOf(s: Database, st: Student): StudentRow {
    StudentRow(st, DepartmentOf(s, st), RegisteredAt(st.createdAt))
  }

  /** registered_at is not a column: a row computes it from created_at, and
      the date it names is the student's creation date. */
  lemma StudentRowRegisteredAt(s: Database, st: Student)
    ensures StudentRowOf(s, st).registeredAt == RegisteredAt(st.createdAt)
    ensures ParseRegisteredAt(StudentRowOf(s, st).registeredAt)
      == Some((st.createdAt.year, st.createdAt.month as int, st.createdAt.day as int))
  {
    RegisteredAtRoundTrip(st.createdAt);
  }

  function StudentRows(s: Database, sts: seq<Student>): (r: seq<StudentRow>)
    ensures |r| == |sts|
    ensures forall i :: 0 <= i < |r| ==> r[i] == StudentRowOf(s, sts[i])
  {
    seq(|sts|, i requires 0 <= i < |sts| => StudentRowOf(s, sts[i]))
  }

  function DepartmentRows(s: Database, ds: seq<Department>): (r: seq<DepartmentRow>)
    ensures |r| == |ds|
    ensures forall i :: 0 <= i < |r| ==> r[i] == DepartmentRow(ds[i], StudentCount(s, ds[i]))
  {
    seq(|ds|, i requires 0 <= i < |ds| => DepartmentRow(ds[i], StudentCount(s, ds[i])))
  }
}

=== FILE: registration.dfy ===
/** RegistrationController (app/Http/Controllers/RegistrationController.php):
    the public application form. */
module RegistrationController {
  import opened Results
  import opened Text
  import opened Timestamps
  import opened Records
  import opened Validation
  import StudentController

  /** The controller's own copy of the student rule array. */
  const Rules: seq<FieldRules> := [
    FieldRules("name", [Required, MaxLength(255)]),
    FieldRules("email", [Required, EmailSyntax, UniqueStudentEmail(None)]),
    FieldRules("phone", [Required, MaxLength(20)]),
    FieldRules("address", [Required]),
    FieldRules("gender", [Required, OneOf(["male", "female", "other"])]),
    FieldRules("department_id", [Required, ExistingDepartment])]

  /** The public form applies the very rule set of the staff `store`. */
  lemma SameRulesAsStaffStore()
    ensures Rules == StudentController.Rules(None)
  {
  }

  /** `create`: the application form offers exactly the active departments. */
  function Create(s: Database): (options: seq<Department>)
    ensures forall d :: d in options <==> d in s.departments && d.status == "active"
  {
    StudentController.CreateForm(s)
  }

  /** `store`: validate, then insert exactly one student, or change nothing. */
  function Store(s: Database, req: Request, now: Timestamp, emailOk: string -> bool): (r: Result<Database, Failure>)
    ensures r.Ok? <==> StudentController.Acceptable(s, req, emailOk, None)
    ensures r.Err? ==> r.error.Invalid? && |r.error.errors| > 0
    ensures r.Ok? ==> (
      && StudentFillable <= req.Keys && ParseNat(req["department_id"]).Some?
      && r.value == s.(students := s.students + [StudentController.Submitted(req, s.nextStudentId, now)],
                       nextStudentId := s.nextStudentId + 1))
  {
    SameRulesAsStaffStore();
    StudentController.RulesMeaning(s, req, emailOk, None);
    match Validate(Rules, req, Context(s, emailOk))
    case Err(errors) => Err(Invalid(errors))
    case Ok(attrs) =>
      StudentController.CreateValidated(s, req, now, emailOk);
      Ok(StudentController.Create(s, attrs, now))
  }

  /** Both entry points decide every submission the same way. */
  lemma SameOutcomeAsStaffStore(s: Database, req: Request, now: Timestamp, emailOk: string -> bool)
    ensures Store(s, req, now, emailOk) == StudentController.Store(s, req, now, emailOk)
  {
    SameRulesAsStaffStore();
  }

  /** A second application with an email already on file is refused on the
      email field, and no student is added. */
  lemma DuplicateEmailRejected(s: Database, req: Request, now: Timestamp, emailOk: string -> bool, j: nat)
    requires j < |s.students| && Present(req, "email") && req["email"] == s.students[j].email
    ensures Store(s, req, now, emailOk).Err?
    ensures FieldError("email", UniqueStudentEmail(None)) in Store(s, req, now, emailOk).error.errors
      <==> emailOk(req["email"])
    ensures !emailOk(req["email"]) ==> FieldError("email", EmailSyntax) in Store(s, req, now, emailOk).error.errors
  {
    SameOutcomeAsStaffStore(s, req, now, emailOk);
    StudentController.StoreRejectsTakenEmail(s, req, now, emailOk);
  }

  /** An accepted application keeps the store invariant. */
  lemma StorePreservesValid(s: Database, req: Request, now: Timestamp, emailOk: string -> bool)
    requires Valid(s) && Store(s, req, now, emailOk).Ok?
    ensures Valid(Store(s, req, now, emailOk).value)
  {
    SameOutcomeAsStaffStore(s, req, now, emailOk);
    StudentController.StorePreservesValid(s, req, now, emailOk);
  }
}

=== FILE: results.dfy ===
/** Option and Result values used by every handler of the model. */
module Results {

  datatype Option<+T> = None | Some(value: T)

  /** The outcome of a request handler: a new value, or the reason it was refused. */
  datatype Result<+T, +E> = Ok(value: T) | Err(error: E)
}

=== FILE: students.dfy ===
/** StudentController (app/Http/Controllers/StudentController.php): the staff
    CRUD actions on students. */
module StudentController {
  import opened Results
  import opened Text
  import opened Timestamps
  import opened Listing
  import opened Records
  import opened Validation

  const PerPage: nat := 10

  /** The rule array of `store` (except = None) and of `update` (except = the
      student being edited, so that it may keep its own email). */
  function Rules(except: Option<Id>): seq<FieldRules> {
    [ FieldRules("name", [Required, MaxLength(255)]),
      FieldRules("email", [Required, EmailSyntax, UniqueStudentEmail(except)]),
      FieldRules("phone", [Required, MaxLength(20)]),
      FieldRules("address", [Required]),
      FieldRules("gender", [Required, OneOf(["male", "female", "other"])]),
      FieldRules("department_id", [Required, ExistingDepartment]) ]
  }

  /** The student rules, stated field by field: name of at most 255 characters,
      an email of valid syntax that no other student holds, phone of at most 20
      characters, an address, gender male/female/other, and the id of an
      existing department of any status. */
  predicate Acceptable(s: Database, req: Request, emailOk: string -> bool, self: Option<Id>) {
    && Present(req, "name") && |req["name"]| <= 255
    && Present(req, "email") && emailOk(req["email"]) && EmailFree(s, req["email"], self)
    && Present(req, "phone") && |req["phone"]| <= 20
    && Present(req, "address")
    && Present(req, "gender") && (req["gender"] == "male" || req["gender"] == "female" || req["gender"] == "other")
    && Present(req, "department_id") && NamesDepartment(s, req["department_id"])
  }

  /** The rule array accepts exactly the requests the rules describe. */
  lemma RulesMeaning(s: Database, req: Request, emailOk: string -> bool, self: Option<Id>)
    ensures Satisfies(Rules(self), req, Context(s, emailOk)) <==> Acceptable(s, req, emailOk, self)
  {
    if Satisfies(Rules(self), req, Context(s, emailOk)) {
      PassingRequestAcceptable(s, req, emailOk, self);
    }
    if Acceptable(s, req, emailOk, self) {
      AcceptableRequestPasses(s, req, emailOk, self);
    }
  }

  lemma AcceptableRequestPasses(s: Database, req: Request, emailOk: string -> bool, self: Option<Id>)
    requires Acceptable(s, req, emailOk, self)
    ensures Satisfies(Rules(self), req, Context(s, emailOk))
  {
  }

  lemma PassingRequestAcceptable(s: Database, req: Request, emailOk: string -> bool, self: Option<Id>)
    requires Satisfies(Rules(self), req, Context(s, emailOk))
    ensures Acceptable(s, req, emailOk, self)
  {
    var rules := Rules(self);
    var ctx := Context(s, emailOk);
    assert !Fails(rules[0], Required, req, ctx) && !Fails(rules[0], MaxLength(255), req, ctx);
    assert !Fails(rules[1], Required, req, ctx) && !Fails(rules[1], EmailSyntax, req, ctx);
    assert !Fails(rules[1], UniqueStudentEmail(self), req, ctx);
    assert !Fails(rules[2], Required, req, ctx) && !Fails(rules[2], MaxLength(20), req, ctx);
    assert !Fails(rules[3], Required, req, ctx);
    assert !Fails(rules[4], Required, req, ctx) && !Fails(rules[4], OneOf(["male", "female", "other"]), req, ctx);
    assert !Fails(rules[5], Required, req, ctx) && !Fails(rules[5], ExistingDepartment, req, ctx);
  }

  /** The student a validated request describes. */
  function Submitted(req: Request, id: Id, createdAt: Timestamp): Student
    requires StudentFillable <= req.Keys && ParseNat(req["department_id"]).Some?
  {
    Student(id, req["name"], req["email"], req["phone"], req["address"], req["gender"],
      ParseNat(req["department_id"]).value, createdAt)
  }

  /** Student::create($validated): a new row with the next id and created_at = now. */
  function Create(s: Database, attrs: Attributes, now: Timestamp): Database {
    var blank := Student(s.nextStudentId, "", "", "", "", "", 0, now);
    s.(students := s.students + [FillStudent(blank, attrs)], nextStudentId := s.nextStudentId + 1)
  }

  lemma ValidatedAttributes(s: Database, req: Request, emailOk: string -> bool, self: Option<Id>)
    requires Validate(Rules(self), req, Context(s, emailOk)).Ok?
    ensures Acceptable(s, req, emailOk, self)
    ensures var attrs := Validate(Rules(self), req, Context(s, emailOk)).value;
      && attrs.Keys == StudentFillable
      && (forall k :: k in attrs ==> attrs[k] == req[k])
  {
    RulesMeaning(s, req, emailOk, self);
    RulesCoverFillable(self);
    AcceptedWellFormed(s, req, emailOk, self, 0, Timestamp(0, 1, 1, 0));
    ValidatedKeys(Rules(self), req, Context(s, emailOk), StudentFillable);
  }

  /** The rule array names exactly the fillable attributes. */
  lemma RulesCoverFillable(self: Option<Id>)
    ensures RuleFields(Rules(self)) == StudentFillable
  {
    var rules := Rules(self);
    assert rules[0].field == "name" && rules[1].field == "email" && rules[2].field == "phone";
    assert rules[3].field == "address" && rules[4].field == "gender" && rules[5].field == "department_id";
    forall f | f in RuleFields(rules)
      ensures f in StudentFillable
    {
      var i :| 0 <= i < |rules| && rules[i].field == f;
    }
  }

  /** `store`: validate, then insert exactly one student carrying the six
      validated fields. */
  function Store(s: Database, req: Request, now: Timestamp, emailOk: string -> bool): (r: Result<Database, Failure>)
    ensures r.Ok? <==> Acceptable(s, req, emailOk, None)
    ensures r.Err? ==> r.error.Invalid? && |r.error.errors| > 0
    ensures r.Ok? ==> (
      && StudentFillable <= req.Keys && ParseNat(req["department_id"]).Some?
      && r.value == s.(students := s.students + [Submitted(req, s.nextStudentId, now)],
                       nextStudentId := s.nextStudentId + 1))
  {
    RulesMeaning(s, req, emailOk, None);
    match Validate(Rules(None), req, Context(s, emailOk))
    case Err(errors) => Err(Invalid(errors))
    case Ok(attrs) =>
      CreateValidated(s, req, now, emailOk);
      Ok(Create(s, attrs, now))
  }

  lemma CreateValidated(s: Database, req: Request, now: Timestamp, emailOk: string -> bool)
    requires Validate(Rules(None), req, Context(s, emailOk)).Ok?
    ensures StudentFillable <= req.Keys && ParseNat(req["department_id"]).Some?
    ensures Create(s, Validate(Rules(None), req, Context(s, emailOk)).value, now)
      == s.(students := s.students + [Submitted(req, s.nextStudentId, now)], nextStudentId := s.nextStudentId + 1)
  {
    var attrs := Validate(Rules(None), req, Context(s, emailOk)).value;
    ValidatedAttributes(s, req, emailOk, None);
    FillStudentAll(Student(s.nextStudentId, "", "", "", "", "", 0, now), attrs, ParseNat(req["department_id"]).value);
  }

  /** A taken email is refused. The unique message appears exactly when the
      email has valid syntax: after a failed `email` rule the `unique` rule is
      not run, and the field carries the syntax message instead. */
  lemma StoreRejectsTakenEmail(s: Database, req: Request, now: Timestamp, emailOk: string -> bool)
    requires Present(req, "email") && !EmailFree(s, req["email"], None)
    ensures Store(s, req, now, emailOk).Err?
    ensures FieldError("email", UniqueStudentEmail(None)) in Store(s, req, now, emailOk).error.errors
      <==> emailOk(req["email"])
    ensures !emailOk(req["email"]) ==> FieldError("email", EmailSyntax) in Store(s, req, now, emailOk).error.errors
  {
    var ctx := Context(s, emailOk);
    if emailOk(req["email"]) {
      BrokenRuleReported(Rules(None), req, ctx, 1, 2);
    } else {
      BrokenRuleReported(Rules(None), req, ctx, 1, 1);
      UniqueSkippedAfterBadSyntax(s, req, emailOk);
    }
  }

  /** With an email of invalid syntax no `unique` message is reported. */
  lemma UniqueSkippedAfterBadSyntax(s: Database, req: Request, emailOk: string -> bool)
    requires Present(req, "email") && !emailOk(req["email"])
    ensures forall i :: 0 <= i < |Rules(None)| && Rules(None)[i].field == "email" ==>
      !Reports(Rules(None)[i], UniqueStudentEmail(None), req, Context(s, emailOk))
  {
    var rules := Rules(None);
    var ctx := Context(s, emailOk);
    forall i | 0 <= i < |rules| && rules[i].field == "email"
      ensures !Reports(rules[i], UniqueStudentEmail(None), req, ctx)
    {
      assert i == 1;
      forall m | 0 <= m < |rules[1].rules| && rules[1].rules[m] == UniqueStudentEmail(None)
        ensures !Reported(rules[1].rules, m, req["email"], ctx)
      {
        assert m == 2;
        assert !Passes(rules[1].rules[1], req["email"], ctx);
      }
    }
  }

  /** A gender other than male, female or other is reported on `gender`. */
  lemma StoreRejectsUnknownGender(s: Database, req: Request, now: Timestamp, emailOk: string -> bool)
    requires Present(req, "gender") && req["gender"] !in ["male", "female", "other"]
    ensures Store(s, req, now, emailOk).Err?
    ensures FieldError("gender", OneOf(["male", "female", "other"])) in Store(s, req, now, emailOk).error.errors
  {
    BrokenRuleReported(Rules(None), req, Context(s, emailOk), 4, 1);
  }

  /** A phone longer than 20 characters is reported on `phone`. */
  lemma StoreRejectsLongPhone(s: Database, req: Request, now: Timestamp, emailOk: string -> bool)
    requires Present(req, "phone") && |req["phone"]| > 20
    ensures Store(s, req, now, emailOk).Err?
    ensures FieldError("phone", MaxLength(20)) in Store(s, req, now, emailOk).error.errors
  {
    BrokenRuleReported(Rules(None), req, Context(s, emailOk), 2, 1);
  }

  /** A department_id naming no department is reported on `department_id`. */
  lemma StoreRejectsUnknownDepartment(s: Database, req: Request, now: Timestamp, emailOk: string -> bool)
    requires Present(req, "department_id") && !NamesDepartment(s, req["department_id"])
    ensures Store(s, req, now, emailOk).Err?
    ensures FieldError("department_id", ExistingDepartment) in Store(s, req, now, emailOk).error.errors
  {
    BrokenRuleReported(Rules(None), req, Context(s, emailOk), 5, 1);
  }

  /** `update`: route-model binding, validation with the student's own email
      allowed, then `$student->update($validated)` on that one row. */
  function Update(s: Database, id: Id, req: Request, emailOk: string -> bool): (r: Result<Database, Failure>)
    ensures FindStudent(s.students, id).None? ==> r == Err(NotFound)
    ensures r.Ok? <==> FindStudent(s.students, id).Some? && Acceptable(s, req, emailOk, Some(id))
    ensures r.Err? && FindStudent(s.students, id).Some? ==> r.error.Invalid? && |r.error.errors| > 0
    ensures r.Ok? ==> (var k := FindStudent(s.students, id).value;
      && StudentFillable <= req.Keys && ParseNat(req["department_id"]).Some?
      && r.value == s.(students := s.students[k := Submitted(req, id, s.students[k].createdAt)]))
  {
    match FindStudent(s.students, id)
    case None => Err(NotFound)
    case Some(k) =>
      RulesMeaning(s, req, emailOk, Some(id));
      match Validate(Rules(Some(id)), req, Context(s, emailOk))
      case Err(errors) => Err(Invalid(errors))
      case Ok(attrs) =>
        ValidatedAttributes(s, req, emailOk, Some(id));
        FillStudentAll(s.students[k], attrs, ParseNat(req["department_id"]).value);
        Ok(s.(students := s.students[k := FillStudent(s.students[k], attrs)]))
  }

  /** Submitting the same update twice leaves the same rows as submitting it
      once: the email just written is the student's own, which its unique
      rule exempts. */
  lemma UpdateIdempotent(s: Database, id: Id, req: Request, emailOk: string -> bool)
    requires Update(s, id, req, emailOk).Ok?
    ensures var t := Update(s, id, req, emailOk).value;
      Update(t, id, req, emailOk) == Ok(t)
  {
    var k := FindStudent(s.students, id).value;
    var t := Update(s, id, req, emailOk).value;
    assert t.students[k].id == id;
    assert FindStudent(t.students, id).value == k;
    assert EmailFree(t, req["email"], Some(id)) by {
      forall i | 0 <= i < |t.students| && t.students[i].email == req["email"]
        ensures Some(id) == Some(t.students[i].id)
      {
        if i != k {
          assert t.students[i] == s.students[i];
        }
      }
    }
    assert Acceptable(t, req, emailOk, Some(id));
    assert t.students[k := Submitted(req, id, t.students[k].createdAt)] == t.students;
  }

  /** A student submitting its own current email passes the uniqueness rule. */
  lemma UpdateKeepsOwnEmail(s: Database, k: nat)
    requires Valid(s) && k < |s.students|
    ensures EmailFree(s, s.students[k].email, Some(s.students[k].id))
  {
    forall i | 0 <= i < |s.students| && s.students[i].email == s.students[k].email
      ensures Some(s.students[k].id) == Some(s.students[i].id)
    {
    }
  }

  /** An email held by a different student is refused on update. */
  lemma UpdateRejectsOthersEmail(s: Database, id: Id, req: Request, emailOk: string -> bool, j: nat)
    requires j < |s.students| && s.students[j].id != id
    requires Present(req, "email") && req["email"] == s.students[j].email
    ensures Update(s, id, req, emailOk).Err?
  {
  }

  /** `destroy`: route-model binding, then delete exactly that row. */
  function Destroy(s: Database, id: Id): (r: Result<Database, Failure>)
    ensures FindStudent(s.students, id).None? <==> r == Err(NotFound)
    ensures r.Ok? ==> (var k := FindStudent(s.students, id).value;
      && r.value == s.(students := RemoveAt(s.students, k)))
  {
    match FindStudent(s.students, id)
    case None => Err(NotFound)
    case Some(k) => Ok(s.(students := RemoveAt(s.students, k)))
  }

  /** After `destroy` the student is gone and every other student remains. */
  lemma DestroyRemovesOnlyTarget(s: Database, id: Id)
    requires Valid(s) && Destroy(s, id).Ok?
    ensures forall st :: st in Destroy(s, id).value.students <==> st in s.students && st.id != id
  {
    var k := FindStudent(s.students, id).value;
    RemoveById(s.students, k, id);
  }

  lemma RemoveById(sts: seq<Student>, k: nat, id: Id)
    requires k < |sts| && sts[k].id == id
    requires forall i, j :: 0 <= i < j < |sts| ==> sts[i].id < sts[j].id
    ensures forall st :: st in RemoveAt(sts, k) <==> st in sts && st.id != id
  {
    var t := RemoveAt(sts, k);
    forall st
      ensures st in t <==> st in sts && st.id != id
    {
      if st in t {
        var j :| 0 <= j < |t| && t[j] == st;
        if j < k {
          assert sts[j] == st;
        } else {
          assert sts[j + 1] == st;
        }
      }
      if st in sts && st.id != id {
        var i :| 0 <= i < |sts| && sts[i] == st;
        if i < k {
          assert t[i] == st;
        } else {
          assert t[i - 1] == st;
        }
      }
    }
  }

  /** `index`: `Student::with('department')->paginate(10)`, in row order. */
  function Index(s: Database, page: Option<int>): (p: Paginated<StudentRow>)
    ensures p.total == |s.students| && p.perPage == PerPage
    ensures p.currentPage == CurrentPage(page)
    ensures p.lastPage == LastPage(|s.students|, PerPage)
    ensures var lo := Offset(p.currentPage, PerPage);
      if lo < |s.students|
      then |p.data| == (if PerPage < |s.students| - lo then PerPage else |s.students| - lo)
      else p.data == []
    ensures p.from.Some? <==> |p.data| > 0
    ensures p.from.Some? ==> p.from == Some(Offset(p.currentPage, PerPage) + 1)
    ensures p.from.Some? ==> p.to == Some(Offset(p.currentPage, PerPage) + |p.data|)
    ensures forall i :: 0 <= i < |p.data| ==>
      && Offset(p.currentPage, PerPage) + i < |s.students|
      && p.data[i] == StudentRowOf(s, s.students[Offset(p.currentPage, PerPage) + i])
  {
    Paginate(StudentRows(s, s.students), page, PerPage)
  }

  /** The rows of index pages 1 to k, one page after another. */
  function IndexPages(s: Database, k: nat): seq<StudentRow> {
    if k == 0 then [] else IndexPages(s, k - 1) + Index(s, Some(k)).data
  }

  /** Paging through the index from page 1 to the last page lists every
      student exactly once, in table order, each with its department and
      registration date. */
  lemma IndexPagesCoverAll(s: Database)
    ensures var all := IndexPages(s, LastPage(|s.students|, PerPage));
      && |all| == |s.students|
      && forall i :: 0 <= i < |all| ==> all[i] == StudentRowOf(s, s.students[i])
  {
    IndexPagesArePages(s, LastPage(|s.students|, PerPage));
    PagesCoverAll(StudentRows(s, s.students), PerPage);
  }

  lemma {:induction false} IndexPagesArePages(s: Database, k: nat)
    ensures IndexPages(s, k) == PagesUpTo(StudentRows(s, s.students), PerPage, k)
  {
    if k > 0 {
      IndexPagesArePages(s, k - 1);
    }
  }

  /** Fifteen students fill page one with ten rows, and there are two pages. */
  lemma IndexFifteenStudents(s: Database)
    requires |s.students| == 15
    ensures |Index(s, None).data| == 10
    ensures Index(s, None).currentPage == 1 && Index(s, None).lastPage == 2
  {
  }

  /** `show`: the student with its department, or a 404. */
  function Show(s: Database, id: Id): (r: Result<StudentRow, Failure>)
    ensures r.Err? <==> FindStudent(s.students, id).None?
    ensures r.Err? ==> r.error == NotFound
    ensures r.Ok? ==> (
      && r.value.student in s.students && r.value.student.id == id
      && r.value.department == DepartmentOf(s, r.value.student))
    ensures r.Ok? ==> r.value == StudentRowOf(s, r.value.student)
  {
    match FindStudent(s.students, id)
    case None => Err(NotFound)
    case Some(k) => Ok(StudentRowOf(s, s.students[k]))
  }

  /** `create`: the registration form offers the active departments. */
  function CreateForm(s: Database): (options: seq<Department>)
    ensures forall d :: d in options <==> d in s.departments && d.status == "active"
  {
    ActiveDepartments(s.departments)
  }

  /** `edit`: the student with its department, and the active departments. */
  function EditForm(s: Database, id: Id): (r: Result<(StudentRow, seq<Department>), Failure>)
    ensures r.Err? <==> FindStudent(s.students, id).None?
    ensures r.Ok? ==> r.value.0.student in s.students && r.value.0.student.id == id
    ensures r.Ok? ==> r.value.0.department == DepartmentOf(s, r.value.0.student)
    ensures r.Ok? ==> r.value.0 == StudentRowOf(s, r.value.0.student)
    ensures r.Ok? ==> forall d :: d in r.value.1 <==> d in s.departments && d.status == "active"
  {
    match FindStudent(s.students, id)
    case None => Err(NotFound)
    case Some(k) => Ok((StudentRowOf(s, s.students[k]), CreateForm(s)))
  }

  /** A stored student is shown under the id it was given, as submitted. */
  lemma StoreThenShow(s: Database, req: Request, now: Timestamp, emailOk: string -> bool)
    requires Valid(s) && Store(s, req, now, emailOk).Ok?
    ensures var t := Store(s, req, now, emailOk).value;
      && Show(t, s.nextStudentId).Ok?
      && Show(t, s.nextStudentId).value.student == Submitted(req, s.nextStudentId, now)
  {
    var t := Store(s, req, now, emailOk).value;
    var n := |s.students|;
    assert t.students[n].id == s.nextStudentId;
  }

  /** A destroyed student is no longer shown: its id gives a 404. */
  lemma DestroyThenShow(s: Database, id: Id)
    requires Valid(s) && Destroy(s, id).Ok?
    ensures Show(Destroy(s, id).value, id) == Err(NotFound)
  {
    var t := Destroy(s, id).value;
    DestroyRemovesOnlyTarget(s, id);
    forall i | 0 <= i < |t.students|
      ensures t.students[i].id != id
    {
      assert t.students[i] in t.students;
    }
  }

  // ---------------------------------------------------------------------------
  // The store invariant is kept by every mutation.

  lemma StorePreservesValid(s: Database, req: Request, now: Timestamp, emailOk: string -> bool)
    requires Valid(s) && Store(s, req, now, emailOk).Ok?
    ensures Valid(Store(s, req, now, emailOk).value)
  {
    var st := Submitted(req, s.nextStudentId, now);
    AcceptedWellFormed(s, req, emailOk, None, s.nextStudentId, now);
    AppendPreservesValid(s, st);
  }

  /** An accepted request describes a student that satisfies the row invariant. */
  lemma AcceptedWellFormed(s: Database, req: Request, emailOk: string -> bool, self: Option<Id>, id: Id, t: Timestamp)
    requires Acceptable(s, req, emailOk, self)
    ensures StudentFillable <= req.Keys && ParseNat(req["department_id"]).Some?
    ensures WellFormedStudent(Submitted(req, id, t)) && EmailFree(s, req["email"], self)
  {
    assert req["gender"] in Genders;
  }

  lemma UpdatePreservesValid(s: Database, id: Id, req: Request, emailOk: string -> bool)
    requires Valid(s) && Update(s, id, req, emailOk).Ok?
    ensures Valid(Update(s, id, req, emailOk).value)
  {
    var k := FindStudent(s.students, id).value;
    ReplacePreservesValid(s, k, Submitted(req, id, s.students[k].createdAt));
  }

  lemma DestroyPreservesValid(s: Database, id: Id)
    requires Valid(s) && Destroy(s, id).Ok?
    ensures Valid(Destroy(s, id).value)
  {
    RemovePreservesValid(s, FindStudent(s.students, id).value);
  }

  lemma AppendPreservesValid(s: Database, st: Student)
    requires Valid(s) && st.id == s.nextStudentId && WellFormedStudent(st)
    requires EmailFree(s, st.email, None)
    ensures Valid(s.(students := s.students + [st], nextStudentId := s.nextStudentId + 1))
  {
  }

  lemma ReplacePreservesValid(s: Database, k: nat, st: Student)
    requires Valid(s) && k < |s.students| && st.id == s.students[k].id && WellFormedStudent(st)
    requires EmailFree(s, st.email, Some(st.id))
    ensures Valid(s.(students := s.students[k := st]))
  {
  }

  lemma RemovePreservesValid(s: Database, k: nat)
    requires Valid(s) && k < |s.students|
    ensures Valid(s.(students := RemoveAt(s.students, k)))
  {
  }
}

=== FILE: text.dfy ===
/** Text helpers: blank detection, substring search and decimal numerals. */
module Text {
  import opened Results

  /** The characters PHP's trim() strips by default. */
  predicate IsTrimmable(c: char) {
    c == ' ' || c == '\t' || c == '\n' || c == '\r' || c as int == 0 || c as int == 11
  }

  /** A value is blank when nothing is left of it after trimming. */
  predicate IsBlank(s: string) {
    forall i :: 0 <= i < |s| ==> IsTrimmable(s[i])
  }

  predicate IsPrefix(p: string, s: string) {
    |p| <= |s| && s[..|p|] == p
  }

  /** `needle` occurs somewhere in `hay`; the pattern `%needle%` of SQL LIKE
      without wildcard characters inside `needle`. */
  predicate Contains(hay: string, needle: string)
    decreases |hay|
  {
    IsPrefix(needle, hay) || (|hay| > 0 && Contains(hay[1..], needle))
  }

  lemma {:induction false} ContainsAt(hay: string, needle: string, i: nat)
    requires i + |needle| <= |hay|
    requires hay[i..i + |needle|] == needle
    ensures Contains(hay, needle)
    decreases i
  {
    if i == 0 {
      assert hay[..|needle|] == needle;
    } else {
      assert hay[1..][i - 1..i - 1 + |needle|] == hay[i..i + |needle|];
      ContainsAt(hay[1..], needle, i - 1);
    }
  }

  /** Every occurrence found by Contains is a real slice of `hay`. */
  lemma {:induction false} ContainsWitness(hay: string, needle: string) returns (i: nat)
    requires Contains(hay, needle)
    ensures i + |needle| <= |hay| && hay[i..i + |needle|] == needle
    decreases |hay|
  {
    if IsPrefix(needle, hay) {
      i := 0;
    } else {
      var j := ContainsWitness(hay[1..], needle);
      i := j + 1;
      assert hay[i..i + |needle|] == hay[1..][j..j + |needle|];
    }
  }

  predicate IsDigit(c: char) {
    '0' <= c <= '9'
  }

  function DigitValue(c: char): nat
    requires IsDigit(c)
  {
    c as int - '0' as int
  }

  function DigitChar(d: nat): (c: char)
    requires d < 10
    ensures IsDigit(c) && DigitValue(c) == d
  {
    ('0' as int + d) as char
  }

  predicate AllDigits(s: string) {
    forall i :: 0 <= i < |s| ==> IsDigit(s[i])
  }

  /** The value of a string of decimal digits, most significant first. */
  function DigitsValue(s: string): nat
    requires AllDigits(s)
  {
    if |s| == 0 then 0 else DigitsValue(s[..|s| - 1]) * 10 + DigitValue(s[|s| - 1])
  }

  /** Reads a non-empty run of decimal digits; anything else is not a number. */
  function ParseNat(s: string): (r: Option<nat>)
    ensures r.Some? <==> |s| > 0 && AllDigits(s)
  {
    if |s| > 0 && AllDigits(s) then Some(DigitsValue(s)) else None
  }

  /** The shortest decimal numeral of `n`. */
  function NatToString(n: nat): (s: string)
    ensures |s| > 0 && AllDigits(s)
    ensures |s| == 1 <==> n < 10
    ensures n >= 10 ==> s[0] != '0'
  {
    if n < 10 then [DigitChar(n)] else NatToString(n / 10) + [DigitChar(n % 10)]
  }

  /** `n` written with at least `width` digits, padded with leading zeros. */
  function ZeroPad(n: nat, width: nat): (s: string)
    ensures AllDigits(s)
    ensures |s| == if |NatToString(n)| < width then width else |NatToString(n)|
  {
    Zeros(width - |NatToString(n)|) + NatToString(n)
  }

  function Zeros(k: int): (s: string)
    ensures |s| == if k < 0 then 0 else k
    ensures forall i :: 0 <= i < |s| ==> s[i] == '0'
    decreases k
  {
    if k <= 0 then [] else ['0'] + Zeros(k - 1)
  }

  lemma {:induction false} NatToStringValue(n: nat)
    ensures DigitsValue(NatToString(n)) == n
    decreases n
  {
    if n >= 10 {
      var s := NatToString(n);
      assert s[..|s| - 1] == NatToString(n / 10);
      NatToStringValue(n / 10);
    }
  }

  /** Leading zeros do not change the value of a numeral. */
  lemma {:induction false} LeadingZeroValue(s: string)
    requires AllDigits(s)
    ensures AllDigits(['0'] + s) && DigitsValue(['0'] + s) == DigitsValue(s)
    decreases |s|
  {
    if |s| > 0 {
      assert (['0'] + s)[..|['0'] + s| - 1] == ['0'] + s[..|s| - 1];
      LeadingZeroValue(s[..|s| - 1]);
    }
  }

  lemma {:induction false} ZerosValue(k: int, s: string)
    requires AllDigits(s)
    ensures AllDigits(Zeros(k) + s) && DigitsValue(Zeros(k) + s) == DigitsValue(s)
    decreases k
  {
    if k <= 0 {
      assert Zeros(k) + s == s;
    } else {
      ZerosValue(k - 1, s);
      assert Zeros(k) + s == ['0'] + (Zeros(k - 1) + s);
      LeadingZeroValue(Zeros(k - 1) + s);
    }
  }

  /** Reading back a numeral, padded or not, gives the number it was written from. */
  lemma ParseNatRoundTrip(n: nat, width: nat)
    ensures ParseNat(NatToString(n)) == Some(n)
    ensures ParseNat(ZeroPad(n, width)) == Some(n)
  {
    NatToStringValue(n);
    ZerosValue(width - |NatToString(n)|, NatToString(n));
  }
}

=== FILE: timestamps.dfy ===
/** Creation timestamps of records and the `registered_at` rendering of them
    (app/Models/Student.php, getRegisteredAtAttribute). */
module Timestamps {
  import opened Results
  import opened Text

  type Month = m: int | 1 <= m <= 12 witness 1
  type Day = d: int | 1 <= d <= 31 witness 1
  type SecondOfDay = s: int | 0 <= s < 86400

  /** A `created_at` value: a calendar date and the second within that day. */
  datatype Timestamp = Timestamp(year: int, month: Month, day: Day, second: SecondOfDay)

  /** `a` is the same instant as `b` or a later one. */
  predicate NotBefore(a: Timestamp, b: Timestamp) {
    || a.year > b.year
    || (a.year == b.year && a.month > b.month)
    || (a.year == b.year && a.month == b.month && a.day > b.day)
    || (a.year == b.year && a.month == b.month && a.day == b.day && a.second >= b.second)
  }

  /** NotBefore is a total preorder (in fact a total order on timestamps). */
  lemma NotBeforeTotalOrder(a: Timestamp, b: Timestamp, c: Timestamp)
    ensures NotBefore(a, a)
    ensures NotBefore(a, b) || NotBefore(b, a)
    ensures NotBefore(a, b) && NotBefore(b, a) ==> a == b
    ensures NotBefore(a, b) && NotBefore(b, c) ==> NotBefore(a, c)
  {
  }

  const MonthNames: seq<string> :=
    ["Jan", "Feb", "Mar", "Apr", "May", "Jun", "Jul", "Aug", "Sep", "Oct", "Nov", "Dec"]

  /** PHP date format letter `M`: three-letter English month abbreviation. */
  function MonthAbbrev(m: Month): (r: string)
    ensures |r| == 3
  {
    MonthNames[m - 1]
  }

  /** PHP date format letter `Y`: at least four digits, `-` before years BCE. */
  function YearText(y: int): string {
    if y < 0 then "-" + ZeroPad(-y, 4) else ZeroPad(y, 4)
  }

  /** The `registered_at` attribute: created_at in the PHP date format "M d, Y",
      e.g. "Mar 03, 2025". */
  function RegisteredAt(t: Timestamp): string {
    MonthAbbrev(t.month) + " " + ZeroPad(t.day, 2) + ", " + YearText(t.year)
  }

  /** Reads back a "M d, Y" string: the inverse of RegisteredAt on its image. */
  function ParseRegisteredAt(s: string): Option<(int, int, int)> {
    if |s| < 9 || s[3] != ' ' || s[6..8] != ", " then None
    else
      var month := MonthNumber(s[..3]);
      var day := ParseNat(s[4..6]);
      var year := ParseYear(s[8..]);
      if month.Some? && day.Some? && year.Some? then Some((year.value, month.value, day.value))
      else None
  }

  function MonthNumber(name: string): (r: Option<Month>)
    ensures r.Some? ==> MonthAbbrev(r.value) == name
  {
    MonthFrom(name, 1)
  }

  function MonthFrom(name: string, m: Month): (r: Option<Month>)
    ensures r.Some? ==> m <= r.value && MonthAbbrev(r.value) == name
    ensures forall k: Month :: m <= k && MonthAbbrev(k) == name ==> r.Some?
    decreases 12 - m
  {
    if MonthAbbrev(m) == name then Some(m)
    else if m == 12 then None
    else MonthFrom(name, m + 1)
  }

  function ParseYear(s: string): Option<int> {
    if |s| > 0 && s[0] == '-' then
      match ParseNat(s[1..])
      case Some(n) => Some(-(n as int))
      case None => None
    else
      match ParseNat(s)
      case Some(n) => Some(n)
      case None => None
  }

  lemma MonthNamesDistinct(a: Month, b: Month)
    ensures MonthAbbrev(a) == MonthAbbrev(b) ==> a == b
  {
  }

  lemma TwoDigitDay(d: Day)
    ensures |ZeroPad(d, 2)| == 2
  {
    if d >= 10 {
      assert NatToString(d) == NatToString(d / 10) + [DigitChar(d % 10)];
    }
  }

  /** RegisteredAt loses nothing of the date: parsing it gives back
      year, month and day. */
  lemma RegisteredAtRoundTrip(t: Timestamp)
    ensures ParseRegisteredAt(RegisteredAt(t)) == Some((t.year, t.month as int, t.day as int))
  {
    TwoDigitDay(t.day);
    ParseParts(MonthAbbrev(t.month), ZeroPad(t.day, 2), YearText(t.year));
    MonthNumberRoundTrip(t.month);
    ParseNatRoundTrip(t.day, 2);
    YearRoundTrip(t.year);
  }

  /** The parser reads the three fields of "Mmm dd, Y" independently. */
  lemma ParseParts(mon: string, dd: string, yy: string)
    requires |mon| == 3 && |dd| == 2
    ensures var s := mon + " " + dd + ", " + yy;
      ParseRegisteredAt(s) ==
        var month := MonthNumber(mon);
        var day := ParseNat(dd);
        var year := ParseYear(yy);
        if month.Some? && day.Some? && year.Some? then Some((year.value, month.value, day.value))
        else None
  {
    Layout(mon, dd, yy);
  }

  lemma MonthNumberRoundTrip(m: Month)
    ensures MonthNumber(MonthAbbrev(m)) == Some(m)
  {
    var r := MonthNumber(MonthAbbrev(m));
    assert r.Some?;
    MonthNamesDistinct(r.value, m);
  }

  lemma YearRoundTrip(y: int)
    ensures ParseYear(YearText(y)) == Some(y)
  {
    var yy := YearText(y);
    if y < 0 {
      ParseNatRoundTrip(-y, 4);
      assert yy[1..] == ZeroPad(-y, 4);
    } else {
      ParseNatRoundTrip(y, 4);
      assert |yy| > 0 && yy[0] != '-';
    }
  }

  /** For years 0 through 9999 the rendering is exactly twelve characters:
      "Mmm dd, yyyy". */
  lemma RegisteredAtShape(t: Timestamp)
    requires 0 <= t.year <= 9999
    ensures |RegisteredAt(t)| == 12
    ensures RegisteredAt(t)[3] == ' ' && RegisteredAt(t)[6..8] == ", "
    ensures AllDigits(RegisteredAt(t)[4..6]) && AllDigits(RegisteredAt(t)[8..])
  {
    TwoDigitDay(t.day);
    FourDigitYear(t.year);
    Layout(MonthAbbrev(t.month), ZeroPad(t.day, 2), YearText(t.year));
  }

  lemma FourDigitYear(n: nat)
    requires n <= 9999
    ensures |ZeroPad(n, 4)| == 4
  {
    if n >= 10 {
      assert NatToString(n) == NatToString(n / 10) + [DigitChar(n % 10)];
      if n / 10 >= 10 {
        assert NatToString(n / 10) == NatToString(n / 100) + [DigitChar((n / 10) % 10)];
        if n / 100 >= 10 {
          assert NatToString(n / 100) == NatToString(n / 1000) + [DigitChar((n / 100) % 10)];
        }
      }
    }
  }

  /** Where the pieces of "Mmm dd, Y" sit. */
  lemma Layout(mon: string, dd: string, yy: string)
    requires |mon| == 3 && |dd| == 2
    ensures var s := mon + " " + dd + ", " + yy;
      && |s| == 8 + |yy| && s[..3] == mon && s[3] == ' ' && s[4..6] == dd && s[6..8] == ", " && s[8..] == yy
  {
    var s := mon + " " + dd + ", " + yy;
    assert s[..3] == mon;
    assert s[4..6] == dd;
    assert s[6..8] == ", ";
    assert s[8..] == yy;
  }
}

=== FILE: validation.dfy ===
/** `$request->validate([...])` for the rule kinds the controllers use.
    A rule set is the controller's array, field by field; a request is the
    submitted form, field name to text. */
module Validation {
  import opened Results
  import opened Text
  import opened Records

  /** The rules appearing in the controllers' rule arrays. `string` is not
      listed: every submitted value is text here, so it always holds. */
  datatype Rule =
    | Required                            // required
    | MaxLength(limit: nat)               // max:N on a string: at most N characters
    | EmailSyntax                         // email
    | UniqueStudentEmail(except: Option<Id>)  // unique:students,email[,id]
    | OneOf(options: seq<string>)         // in:a,b,...
    | ExistingDepartment                  // exists:departments,id

  datatype FieldRules = FieldRules(field: string, rules: seq<Rule>)

  /** One failed rule of one field; the pages show one message per field. */
  datatype FieldError = FieldError(field: string, rule: Rule)

  type Request = map<string, string>

  /** Why a handler refused a request: route-model binding found no record
      (a 404), or validation failed (a redirect back with the field errors). */
  datatype Failure = NotFound | Invalid(errors: seq<FieldError>)

  /** The field was submitted and is not blank. */
  predicate Present(req: Request, field: string) {
    field in req && !IsBlank(req[field])
  }

  /** What the rules consult besides the value: the store, and the email-syntax
      check, which is the framework's and is taken as given. */
  datatype Context = Context(store: Database, emailOk: string -> bool)

  /** No student other than `except` holds `email`. */
  predicate EmailFree(s: Database, email: string, except: Option<Id>) {
    forall i :: 0 <= i < |s.students| && s.students[i].email == email ==> except == Some(s.students[i].id)
  }

  /** The text names a department id that exists. */
  predicate NamesDepartment(s: Database, text: string) {
    ParseNat(text).Some? && DepartmentExists(s, ParseNat(text).value)
  }

  predicate Passes(rule: Rule, value: string, ctx: Context) {
    match rule
    case Required => !IsBlank(value)
    case MaxLength(n) => |value| <= n
    case EmailSyntax => ctx.emailOk(value)
    case UniqueStudentEmail(except) => EmailFree(ctx.store, value, except)
    case OneOf(options) => value in options
    case ExistingDepartment => NamesDepartment(ctx.store, value)
  }

  /** A field counts as missing when absent or blank. */
  predicate Missing(req: Request, field: string) {
    !Present(req, field)
  }

  /** Rule `rule` of `fr` fails on `req`. A missing field fails only `required`:
      the other rules are not run on it. */
  predicate Fails(fr: FieldRules, rule: Rule, req: Request, ctx: Context) {
    rule in fr.rules &&
    if Missing(req, fr.field) then rule == Required else !Passes(rule, req[fr.field], ctx)
  }

  /** The rules Laravel runs only while the field has no message yet
      (`unique` and `exists`: it will not query the database for a value
      already known to be wrong). */
  predicate ChecksDatabase(rule: Rule) {
    rule.UniqueStudentEmail? || rule.ExistingDepartment?
  }

  /** Rule k of a submitted field produces a message: it fails, and when it is
      a database rule, every rule before it passed. */
  predicate Reported(rules: seq<Rule>, k: nat, value: string, ctx: Context)
    requires k < |rules|
  {
    && !Passes(rules[k], value, ctx)
    && (ChecksDatabase(rules[k]) ==> forall j :: 0 <= j < k ==> Passes(rules[j], value, ctx))
  }

  /** The messages of rules k.. of one submitted field, run in order. `quiet`
      says the field has no message yet; a database rule is skipped otherwise. */
  function FailedFrom(field: string, rules: seq<Rule>, k: nat, value: string, ctx: Context, quiet: bool): (r: seq<FieldError>)
    requires k <= |rules|
    requires quiet <==> forall j :: 0 <= j < k ==> Passes(rules[j], value, ctx)
    ensures forall e :: e in r <==>
      e.field == field && exists m :: k <= m < |rules| && rules[m] == e.rule && Reported(rules, m, value, ctx)
    decreases |rules| - k
  {
    if k == |rules| then []
    else
      var message := !(ChecksDatabase(rules[k]) && !quiet) && !Passes(rules[k], value, ctx);
      var rest := FailedFrom(field, rules, k + 1, value, ctx, quiet && !message);
      (if message then [FieldError(field, rules[k])] else []) + rest
  }

  /** A failing rule of a submitted field always leaves a message: the first
      failing rule is reported, database rule or not. */
  lemma {:induction false} FirstFailureReported(rules: seq<Rule>, k: nat, value: string, ctx: Context)
    requires k < |rules| && !Passes(rules[k], value, ctx)
    ensures exists m :: 0 <= m <= k && Reported(rules, m, value, ctx)
    decreases k
  {
    if forall j :: 0 <= j < k ==> Passes(rules[j], value, ctx) {
      assert Reported(rules, k, value, ctx);
    } else {
      var j :| 0 <= j < k && !Passes(rules[j], value, ctx);
      FirstFailureReported(rules, j, value, ctx);
    }
  }

  /** The field has a message for `rule`. A missing field gets only the
      `required` message: `required` is implicit, and its failure stops the
      field's validation. */
  predicate Reports(fr: FieldRules, rule: Rule, req: Request, ctx: Context) {
    if Missing(req, fr.field) then rule == Required && Required in fr.rules
    else exists m :: 0 <= m < |fr.rules| && fr.rules[m] == rule && Reported(fr.rules, m, req[fr.field], ctx)
  }

  /** Only failing rules are reported, and a field with a failing rule gets at
      least one message. */
  lemma ReportsFailures(fr: FieldRules, req: Request, ctx: Context)
    ensures forall rule :: Reports(fr, rule, req, ctx) ==> Fails(fr, rule, req, ctx)
    ensures (exists rule :: Fails(fr, rule, req, ctx)) ==> exists rule :: Reports(fr, rule, req, ctx)
  {
    if rule :| Fails(fr, rule, req, ctx) {
      if !Missing(req, fr.field) {
        var k :| 0 <= k < |fr.rules| && fr.rules[k] == rule;
        FirstFailureReported(fr.rules, k, req[fr.field], ctx);
        var m :| 0 <= m <= k && Reported(fr.rules, m, req[fr.field], ctx);
        assert Reports(fr, fr.rules[m], req, ctx);
      } else {
        assert Reports(fr, Required, req, ctx);
      }
    }
  }

  function FieldErrors(fr: FieldRules, req: Request, ctx: Context): (r: seq<FieldError>)
    ensures forall e :: e in r <==> e.field == fr.field && Reports(fr, e.rule, req, ctx)
  {
    if Missing(req, fr.field) then
      if Required in fr.rules then [FieldError(fr.field, Required)] else []
    else FailedFrom(fr.field, fr.rules, 0, req[fr.field], ctx, true)
  }

  predicate HasField(rules: seq<FieldRules>, field: string) {
    exists i :: 0 <= i < |rules| && rules[i].field == field
  }

  /** Every message of every field, in the order of the rule array. */
  function Errors(rules: seq<FieldRules>, req: Request, ctx: Context): (r: seq<FieldError>)
    ensures forall e :: e in r <==>
      exists i :: 0 <= i < |rules| && rules[i].field == e.field && Reports(rules[i], e.rule, req, ctx)
  {
    if |rules| == 0 then []
    else
      var rest := Errors(rules[1..], req, ctx);
      assert forall e :: e in rest <==>
        exists i :: 1 <= i < |rules| && rules[i].field == e.field && Reports(rules[i], e.rule, req, ctx) by {
        forall e
          ensures e in rest <==>
            exists i :: 1 <= i < |rules| && rules[i].field == e.field && Reports(rules[i], e.rule, req, ctx)
        {
          if e in rest {
            var i :| 0 <= i < |rules[1..]| && rules[1..][i].field == e.field && Reports(rules[1..][i], e.rule, req, ctx);
            assert rules[i + 1] == rules[1..][i];
          }
          if exists i :: 1 <= i < |rules| && rules[i].field == e.field && Reports(rules[i], e.rule, req, ctx) {
            var i :| 1 <= i < |rules| && rules[i].field == e.field && Reports(rules[i], e.rule, req, ctx);
            assert rules[1..][i - 1] == rules[i];
          }
        }
      }
      FieldErrors(rules[0], req, ctx) + rest
  }

  /** Every field of the rule array satisfies all of its rules. */
  predicate Satisfies(rules: seq<FieldRules>, req: Request, ctx: Context) {
    forall i, rule :: 0 <= i < |rules| && rule in rules[i].rules ==> !Fails(rules[i], rule, req, ctx)
  }

  /** The fields named by the rule array; `validated()` keeps only these. */
  function RuleFields(rules: seq<FieldRules>): (r: set<string>)
    ensures forall f :: f in r <==> HasField(rules, f)
  {
    set i | 0 <= i < |rules| :: rules[i].field
  }

  /** `$request->validate($rules)`: on success the validated attributes (the
      submitted fields that have rules), otherwise every reported failure. */
  function Validate(rules: seq<FieldRules>, req: Request, ctx: Context): (r: Result<Attributes, seq<FieldError>>)
    ensures r.Ok? <==> Satisfies(rules, req, ctx)
    ensures r.Ok? ==> r.value.Keys == RuleFields(rules) * req.Keys
    ensures r.Ok? ==> forall f :: f in r.value ==> r.value[f] == req[f]
    ensures r.Err? ==> |r.error| > 0
    ensures r.Err? ==> forall e :: e in r.error <==>
      exists i :: 0 <= i < |rules| && rules[i].field == e.field && Reports(rules[i], e.rule, req, ctx)
    ensures r.Err? ==> forall e :: e in r.error ==>
      exists i :: 0 <= i < |rules| && rules[i].field == e.field && Fails(rules[i], e.rule, req, ctx)
  {
    var errs := Errors(rules, req, ctx);
    forall i, rule | 0 <= i < |rules|
      ensures Reports(rules[i], rule, req, ctx) ==> Fails(rules[i], rule, req, ctx)
      ensures Fails(rules[i], rule, req, ctx) ==> |errs| > 0
    {
      ReportsFailures(rules[i], req, ctx);
      if Fails(rules[i], rule, req, ctx) {
        var other :| Reports(rules[i], other, req, ctx);
        assert FieldError(rules[i].field, other) in errs;
      }
    }
    if |errs| == 0 then
      Ok(map f | f in RuleFields(rules) && f in req :: req[f])
    else
      var e := errs[0];
      assert e in errs;
      Err(errs)
  }

  /** When every field with rules was submitted, the validated attributes are
      exactly those fields. */
  lemma ValidatedKeys(rules: seq<FieldRules>, req: Request, ctx: Context, fields: set<string>)
    requires Validate(rules, req, ctx).Ok? && RuleFields(rules) == fields && fields <= req.Keys
    ensures Validate(rules, req, ctx).value.Keys == fields
  {
  }

  /** When a field with a `required` rule is missing, the request fails with
      exactly the `required` error on that field (and maybe others elsewhere). */
  lemma MissingRequiredField(rules: seq<FieldRules>, req: Request, ctx: Context, i: nat)
    requires i < |rules| && Required in rules[i].rules && Missing(req, rules[i].field)
    ensures Validate(rules, req, ctx).Err?
    ensures FieldError(rules[i].field, Required) in Validate(rules, req, ctx).error
  {
    assert Fails(rules[i], Required, req, ctx) && Reports(rules[i], Required, req, ctx);
  }

  /** When a present field breaks its rule k, that rule is reported, unless it
      is a database rule and an earlier rule of the field already failed. */
  lemma BrokenRuleReported(rules: seq<FieldRules>, req: Request, ctx: Context, i: nat, k: nat)
    requires i < |rules| && k < |rules[i].rules| && !Missing(req, rules[i].field)
    requires !Passes(rules[i].rules[k], req[rules[i].field], ctx)
    requires ChecksDatabase(rules[i].rules[k]) ==>
      forall j :: 0 <= j < k ==> Passes(rules[i].rules[j], req[rules[i].field], ctx)
    ensures Validate(rules, req, ctx).Err?
    ensures FieldError(rules[i].field, rules[i].rules[k]) in Validate(rules, req, ctx).error
  {
    assert Fails(rules[i], rules[i].rules[k], req, ctx);
    assert Reported(rules[i].rules, k, req[rules[i].field], ctx);
    assert Reports(rules[i], rules[i].rules[k], req, ctx);
  }
}
